=== FILE: README.md ===
# drf_ecommerce shop core, in Dafny

This project models the request-handling core of a Django REST shop backend. It has accounts, sellers, a catalogue, carts, orders, shipping addresses and reviews, and it proves properties of that model.

Every database table is a finite map from row id to row. The maps are fields of one `Database.Db` object, and a counter issues the ids of new rows. Each view is a method on that store, and its `modifies` clause names the tables it may write. Each framework query becomes an explicit lookup followed by an insert, update or delete:
- `get_or_none` becomes `Core.GetOrNone`, with three outcomes: no match, one match, several matches.
- `update_or_create` and `get_or_create` are lookups followed by an upsert.
- `.filter(...).update(...)` is a map rewrite.

Each state-changing method is proved against a specification function of the old table (`Toggled`, `Attached`, `Upserted`, `SellerUpserted`). The properties the shop promises are then proved about those functions as lemmas.

These parts of the environment are parameters:
- the framework services (e-mail and password validation, e-mail normalisation, password hashing, slug derivation) are the fields of `Core.Framework`;
- the random draws of the order-code generator are a sequence of alphabet positions;
- the clock is a number;
- the requesting user is a `Domain.Requester`.

Prices are whole numbers of hundredths.

Text values reach the model raw. The serializers' character fields strip surrounding whitespace, which here is Python's `str.isspace()` set (`Core.Strip`), and they judge and keep the stripped value, as the REST framework's `trim_whitespace` default does. `int()` skips a slightly smaller set around a number: the ASCII separators U+001C to U+001F are not whitespace to it (`PriceFilter.IsIntSpace`).

Modules, one per source file or concern:
- `Core`: option, result, ids and lookups, Python's stripping and decimal rendering, and the character-field check.
- `Domain`: rows of the tables whose models are not part of this model.
- `ProfileModels`, `ShopModels`: the models.
- `Database`: the store.
- `UniqueCode`: `apps/common/utils.py`.
- `PriceFilter`: `apps/shop/filter_backends.py`.
- `CommonPermissions`, `ShopPermissions`: the permission classes.
- `UserManager`: the user manager.
- `AccountSerializers`, `ShopSerializers`: the serializers.
- `ShopViews`, `SellerViews`, `ProfileViews`: the views.

## Model

| member | source | states |
|---|---|---|
| ProfileModels.ValidateShipping | apps/profiles/models.py:13-19 | Each value is first stripped of surrounding whitespace, as the serializer's character fields do. A body is accepted exactly when all seven columns are present and, once stripped, none is blank, none holds a NUL character, each is within its max_length (255, 254, 12, 1000, 100, 200, 6) and the e-mail is valid. The accepted details are the stripped values. A refusal names exactly the failing fields. |
| ProfileModels.PaddingIgnored | apps/profiles/serializers.py:16-20 | Two bodies whose values differ only in surrounding whitespace validate alike and yield the same row. |
| ProfileModels.DeleteUserCascade | apps/profiles/models.py:10-12 | Deleting a user removes exactly that user's addresses and leaves every other address as it was. |
| ProfileModels.CascadeKeepsOwnership | apps/profiles/models.py:10-12 | After the cascade, every remaining address still belongs to an existing user. |
| ShopModels.CategorySlugIdentifiesOne | apps/shop/models.py:12-13 | Category names and slugs are unique, so a slug lookup matches at most one category. |
| ShopModels.FreeSlugIndex | apps/shop/models.py:13 | The unique slug search stops at the first attempt whose slug no rival holds; every earlier attempt's slug is held by a rival. |
| ShopModels.SlugOnSave | apps/shop/models.py:13 | The saved slug is held by no other category. It is the slug of the name when that is free, and otherwise the first free one of the name's slug with "-2", "-3", … appended. |
| ShopModels.SaveCategory | apps/shop/models.py:12-13 | The save is refused iff another category has the name. Otherwise the row gets the name and a slug derived afresh by `SlugOnSave`, and no other category changes. |
| ShopModels.SaveIgnoresStoredSlug | apps/shop/models.py:13 | The slug a category held before a save has no effect on the save. |
| ShopModels.SaveKeepsCategoriesValid | apps/shop/models.py:12-13 | A save the database accepts keeps category names and slugs unique. |
| ShopModels.SaveProduct | apps/shop/models.py:28 | A save regenerates the product slug from its name and changes no other column. |
| ShopModels.SameNameSharesSlug | apps/shop/models.py:28 | Product slugs are not unique: two saved products with the same name both match a lookup by that slug. |
| ShopModels.DeleteSeller | apps/shop/models.py:24-26 | Deleting a seller nulls `seller` on exactly its products. No product is removed and no other column changes. |
| ShopModels.DeleteCategory | apps/shop/models.py:32-34 | Deleting a category removes exactly its products and keeps the others unchanged. |
| ShopModels.DeletesKeepReferences | apps/shop/models.py:24-34 | Both delete rules leave every product's category, and its seller if it has one, pointing at an existing row. |
| UniqueCode.AlphabetShape | apps/common/utils.py:7 | The alphabet has 35 symbols and no '0'. |
| UniqueCode.Spell | apps/common/utils.py:8 | A drawn code has one character per choice, and each character is the alphabet symbol at the drawn position. |
| UniqueCode.GenerateUniqueCode | apps/common/utils.py:6-12 | A returned code has 12 characters, all from the alphabet, and is not among the stored values. |
| UniqueCode.FirstFreshDraw | apps/common/utils.py:9-12 | The result is the first draw that is not taken; every earlier, colliding draw is discarded. |
| UniqueCode.ExhaustedIffAllCollide | apps/common/utils.py:6-12 | The generator finds no code exactly when every complete draw in the oracle collides. |
| PriceFilter.ParseShow | apps/shop/filter_backends.py:12-14 | Every integer written in decimal parses back to itself under the `int()` model. |
| PriceFilter.ParseIntPadding | apps/shop/filter_backends.py:12-14 | `int()` accepts a number padded with a space or a no-break space, and refuses one padded with U+001C or U+001F, which then gives the "must be integers" 400. |
| PriceFilter.KeepAtMost | apps/shop/filter_backends.py:29 | `price_current__lte` keeps each product, with its multiplicity, exactly when its price is at most the bound. The kept products stay in their input order. |
| PriceFilter.KeepAtLeast | apps/shop/filter_backends.py:31 | `price_current__gte` keeps each product, with its multiplicity, exactly when its price is at least the bound. The kept products stay in their input order. |
| PriceFilter.FilterProducts | apps/shop/filter_backends.py:7-32 | "Must be integers" iff a parameter is missing or not an integer. "Max must exceed min" iff both bounds are non-zero and max ≤ min. Otherwise the result is the input filtered by the minimum if it is set, else by the maximum if it is set. It is a sub-multiset of the input, in input order, and is the input itself when both bounds are 0. |
| PriceFilter.MinimumDiscardsMaximum | apps/shop/filter_backends.py:28-31 | With 0 < min < max, a product priced above max is still returned: the min filter replaces the max filter. |
| CommonPermissions.StaffPassAll | apps/common/permissions.py:4-25 | Staff pass both IsOwner checks whatever the object, and are never refused by IsSeller. IsSeller.has_permission raises for staff iff their account type is SELLER and they have no seller row. The IsSeller object check raises for staff iff they have no seller row. |
| CommonPermissions.AnonymousPassesNone | apps/common/permissions.py:4-25 | An anonymous request fails both IsOwner checks and IsSeller.has_permission. The IsSeller object check raises on it, because it reads `request.user.seller`. |
| CommonPermissions.OwnerObjectIsOwnObject | apps/common/permissions.py:10-11 | For a non-staff user, an object passes IsOwner iff its `user` is the requester. |
| CommonPermissions.SellerGateNeedsApproval | apps/common/permissions.py:15-22 | For a non-staff user, IsSeller grants iff the account type is SELLER and the user's seller is approved. It raises iff the account type is SELLER and there is no seller row. An unapproved seller is refused exactly as the same user with a BUYER account would be. |
| CommonPermissions.SellerObjectIsOwnSellers | apps/common/permissions.py:24-25 | For a non-staff user, an object passes IsSeller iff its `seller` is the requester's seller. The check raises iff the user has no seller row. |
| ShopPermissions.OnlySafeMethodsPass | apps/shop/permissions.py:8-11 | IsReviewer's request check passes exactly for GET, HEAD and OPTIONS, staff included, so POST and DELETE never pass. |
| ShopPermissions.StaffPassObjectCheck | apps/shop/permissions.py:13-22 | Staff are never refused by the object check. It raises for staff iff the object is their own and they have no seller row; otherwise staff pass. |
| ShopPermissions.ExistingReviewRefused | apps/shop/permissions.py:14-19 | A non-staff caller who already has a review of the product is never granted. The check raises if the object is the caller's own and the caller has no seller row; otherwise the caller is refused. |
| ShopPermissions.NonStaffObjectConditions | apps/shop/permissions.py:13-22 | A non-staff caller passes iff the review is its own, its seller's account type is not "SELLER", and it has no review of the product yet. The check raises iff the review is its own and there is no seller row. |
| ShopPermissions.AnonymousObjectCheckRaises | apps/shop/permissions.py:14 | The object check raises for an anonymous caller, since reviews are filtered by that user. |
| UserManager.FirstFailure | apps/accounts/managers.py:22-38 | The reference for a fixed-order validator: no error iff every check passes. |
| UserManager.FirstFailureIsFirst | apps/accounts/managers.py:22-38 | A reported error belongs to a failing check, and every check before it passes. |
| UserManager.ValidateUserFollowsOrder | apps/accounts/managers.py:22-38 | `validate_user` runs, in order, first name, last name, email present, normalised email valid, password present, password valid. The first failing check gives the error and its message. |
| UserManager.ValidateUserAccepts | apps/accounts/managers.py:22-38 | A user is accepted iff both names, the email and the password are present, the normalised email is valid and the password is valid. |
| UserManager.StoredEmailIsRaw | apps/accounts/managers.py:44-47 | The stored email is the argument, not the form normalised at line 30. The stored password is the hash of the argument. |
| UserManager.CreateUser | apps/accounts/managers.py:40-49 | The method fails iff `validate_user` fails, with that error, and then nothing is saved. Otherwise exactly one new row is added, with extra fields defaulting to BUYER, not staff, active. |
| UserManager.ValidateSuperuser | apps/accounts/managers.py:51-56 | Accepted iff `is_staff` is not explicitly false. The result has `is_staff` true and the other fields unchanged, and a refusal carries "Superusers must have is_staff=True". |
| UserManager.CreateSuperuser | apps/accounts/managers.py:58-61 | An explicit falsy `is_staff` is refused with "Superusers must have is_staff=True", and nothing is saved. The method succeeds iff `is_staff` is not falsy and `validate_user` passes; otherwise it fails with `validate_user`'s error. A created superuser is a new row and is staff. |
| UserManager.SuperuserIsStaffUser | apps/accounts/managers.py:51-61 | The row `create_superuser` saves is the row `create_user` would save for the same arguments, with `is_staff` true. |
| AccountSerializers.GetToken | apps/accounts/serializers.py:25-34 | Staff get group "admin" and the parent's role, if any. Others get group "user" and role equal to their account type. Every other claim is the parent's, unchanged. |
| AccountSerializers.ValidatePassword | apps/accounts/serializers.py:13-15 | A password is accepted iff the framework validator accepts it, and it passes through unchanged. |
| AccountSerializers.Register | apps/accounts/serializers.py:7-21 | Both fields are validated together. The e-mail fails iff, once stripped, it is missing or blank, has a NUL character, is not a valid address, or is already a user's e-mail. The password fails iff, once stripped, it is missing or blank, has a NUL character, exceeds 128 characters, or is refused by `validate_password`. Registration succeeds iff neither fails, and a refusal names exactly the failing fields and saves nothing. Otherwise one new row holds the stripped e-mail and the hash of the stripped password. |
| AccountSerializers.RegistrationKeepsEmailsUnique | apps/accounts/serializers.py:7-11 | A registration that passes the e-mail field keeps users' e-mail addresses unique. |
| AccountSerializers.RegistrationBypassesManager | apps/accounts/serializers.py:17-21 | The registered row has empty names, which `validate_user` would refuse, and a hashed password. |
| ShopSerializers.ValidateToggle | apps/shop/serializers.py:67-69 | A toggle body is accepted iff it has a slug that is valid once stripped of surrounding whitespace, and an integer quantity ≥ 0. The accepted slug is the stripped one. Each failing field is reported, and no other field is. |
| ShopSerializers.CheckoutShippingIdAsWritten | apps/shop/serializers.py:72-73 | As written, every body validates and `shipping_id` is absent from the validated data. |
| ShopSerializers.CheckoutShippingId | apps/shop/serializers.py:72-73 | With the field declared, a body is accepted iff it carries an id, and that id reaches the view. |
| ShopSerializers.AsDict | apps/shop/serializers.py:32-46 | The validated data has exactly the declared keys, and the category slug is nested under "category". |
| ShopSerializers.ValidateCreateProduct | apps/shop/serializers.py:32-46 | Accepted iff the name (≤ 100), description, price (10 digits, 2 places) and category slug are valid, the text fields judged once stripped of surrounding whitespace. The result holds the stripped text together with the price and the optional `is_stock`. A refusal names exactly the failing fields. |
| ShopSerializers.PriceOldIgnored | apps/shop/serializers.py:37-46 | A `price_old` in the body never changes the outcome, because it is not a declared field. |
| ShopSerializers.CategorySlugAsWrittenIsNone | apps/shop/serializers.py:33 | Popping "category_slug" from the validated data always yields None. |
| ShopSerializers.CategorySlugOfIsSubmitted | apps/shop/serializers.py:33 | The nested "category" → "slug" entry is the slug the body carried, stripped of surrounding whitespace. |
| ShopSerializers.SellerShopShows | apps/shop/serializers.py:17-23 | Two sellers show the same shop iff their business names, slugs and owners' avatars agree. Approval, the other seller columns and the owner's other columns never show. |
| ShopSerializers.ItemProductShows | apps/shop/serializers.py:49-55 | Two products of one shop show the same line product iff their names, slugs and `price_current` agree. The old price, description, category and stock never show. |
| ShopSerializers.ItemProjectionShows | apps/shop/serializers.py:58-64 | Of the line itself only the quantity shows; its user, product key and order do not. |
| ShopSerializers.OrderSummary | apps/shop/serializers.py:76-102 | An order shows its tx_ref, its user's first name, last name and email, and its own seven address columns as shipping details. Subtotal and total are the `get_cart_subtotal` and `get_cart_total` amounts. |
| ShopSerializers.SummaryContactFromUser | apps/shop/serializers.py:77-79 | Names and email are the order's user's. They do not depend on the shipping snapshot. |
| ShopViews.CartOf | apps/shop/views.py:134-135 | The cart is exactly the user's lines with no order, unchanged. |
| ShopViews.Toggled | apps/shop/views.py:166-179 | After a toggle, the line holds quantity q (overwritten) when q > 0 and is gone when q = 0. Every other line is untouched. |
| ShopViews.ToggleKeepsOneLine | apps/shop/views.py:166-179 | A toggle keeps at most one cart line per user and product. Afterwards the pair has exactly the toggled line, or none for q = 0, and every other pair's cart lines are unchanged. |
| ShopViews.KeptLineCrashesAsWritten | apps/shop/views.py:181-183 | As written, every add or update with q > 0 ends in the call of the missing serializer class. |
| ShopViews.CartReplyOf | apps/shop/views.py:172-187 | Status is 201 iff the line was created, else 200. "Removed From" iff q = 0, "Added To" iff created with q > 0, "Updated In" iff not created with q > 0. The item is None exactly on removal. |
| ShopViews.ToggleCart | apps/shop/views.py:160-187 | As corrected in Findings row 2. A bad body is refused first, reporting its failing fields. Then "No Product" iff no product has the slug, and a lookup error iff several do. Then an update_or_create error iff the pair has several cart lines. Otherwise the toggle succeeds: the line table is `Toggled` at the pair's line or a fresh key, and the reply is `CartReplyOf`. Nothing changes on any error. With one line per pair, the line error cannot happen. |
| ShopViews.UniqueCartOneLine | apps/shop/views.py:166-171 | With at most one cart line per user and product, update_or_create matches at most one line. |
| ShopViews.UpsertCartLine | apps/shop/views.py:166-179 | The upsert succeeds iff at most one line matches, and then leaves the table `Toggled` at that line, or at a fresh key when none matched. `created` holds iff the key is new. |
| ShopViews.AddressWithId | apps/shop/views.py:193-197 | The address lookup finds a row iff an id is given and stored, whoever owns it. |
| ShopViews.CheckoutFindsNoAddressAsWritten | apps/shop/views.py:228-229 | As written, checkout never finds a shipping address, whatever the body and the table hold. |
| ShopViews.CheckoutFindsAddress | apps/shop/views.py:193-197 | With the field declared, a body naming a stored address finds it. |
| ShopViews.FreshRefKeepsUnique | apps/common/utils.py:9-11 | Adding an order whose tx_ref is not stored yet keeps tx_refs unique. |
| ShopViews.Attached | apps/shop/views.py:231 | The batch update attaches every cart line of the user to the order and leaves every other line unchanged. |
| ShopViews.CheckoutMovesCart | apps/shop/views.py:199-231 | After checkout, the order's lines are exactly the former cart, the user's cart is empty, and other users' carts are unchanged. |
| ShopViews.Checkout | apps/shop/views.py:224-235 | As corrected in Findings row 1. Outcomes, in order, each iff the earlier checks passed: "No Items in Cart" iff the cart is empty; a body error iff no id is given; "No shipping address" iff the id is not stored; `CodesExhausted` iff the draws run out. Otherwise checkout succeeds. Nothing changes on any error. On success a new order is created: owned by the user, with a fresh unique tx_ref, the address's seven columns and the current time. The whole cart is attached to it, and tx_ref uniqueness is preserved. |
| ShopViews.PlaceOrder | apps/shop/views.py:216-231 | Exactly one order is added under a new key, and the cart lines are `Attached` to it. tx_ref uniqueness is kept when the new tx_ref is not stored yet. |
| ShopViews.Upserted | apps/shop/views.py:289-293 | The pair's review holds the new content, and every other review is unchanged. |
| ShopViews.UpsertKeepsOneReview | apps/shop/views.py:289-293 | An upsert keeps at most one review per user and product, and the pair then has exactly one. |
| ShopViews.UniqueReviewsOneMatch | apps/shop/views.py:289-293 | With at most one review per user and product, update_or_create matches at most one review. |
| ShopViews.UpsertReview | apps/shop/views.py:289-293 | The upsert succeeds iff at most one review matches, and then leaves the table `Upserted` at that review, or at a fresh key when none matched. |
| ShopViews.OwnReviewVerdict | apps/shop/permissions.py:13-22 | On one's own review the object check raises iff there is no seller row, and otherwise grants exactly staff. |
| ShopViews.CheckAfterUpsertVerdict | apps/shop/views.py:289-294 | The object check runs after the upsert, so the caller's review exists: the check raises iff the caller has no seller row, and otherwise grants exactly staff. |
| ShopViews.ReviewReplyOf | apps/shop/views.py:295-305 | Status 201 and "Created Review" iff the review was created; otherwise 200 and "Updated Review". |
| ShopViews.ReviewProduct | apps/shop/views.py:251-255 | The product lookup succeeds iff exactly one product has the slug, and fails with "No Product with that slug" iff none does. |
| ShopViews.ReviewPost | apps/shop/views.py:283-305 | "No Product" iff no product has the slug, and a lookup error iff several do. Then an anonymous caller makes the write raise. Then an update_or_create error iff the caller has several reviews of the product. Otherwise the review is `Upserted`, and the write stays whatever follows. The check then raises iff the caller has no seller row; otherwise only staff get the `ReviewReplyOf` reply and everyone else is refused. With one review per pair, the upsert error cannot happen. |
| ShopViews.GetReviews | apps/shop/views.py:257-267 | "No Product" iff no product has the slug, and a lookup error iff several do. Then an anonymous caller makes the filter raise. Then "No Reviews" iff the caller has no review of the product. Otherwise the listing is exactly those reviews. |
| ShopViews.ReviewDestroy | apps/shop/views.py:312-318 | Errors come in this order, each iff the earlier checks passed: no product or several products; an anonymous caller (raises); no reviews of the product; an id not among them. Then the check raises iff the caller has no seller row, and refuses non-staff. The delete succeeds iff the product is unique, the id is one of the caller's reviews of it, and the caller is staff with a seller row. Exactly that row is removed, and nothing changes on any error. |
| SellerViews.SellerUpserted | apps/sellers/views.py:29 | The submitted columns are written. On an existing row a column the body left out keeps its stored value, as do the slug and the approval. A new row has exactly the submitted columns and is unapproved. No other seller row changes. |
| SellerViews.ApplicationIdempotent | apps/sellers/views.py:29 | Applying twice with the same columns leaves the table as applying once. |
| SellerViews.ApplicationKeepsOneSeller | apps/sellers/views.py:29 | Repeated applications keep one seller row per user. |
| SellerViews.ApplyAsSeller | apps/sellers/views.py:24-33 | The application succeeds iff the user has at most one seller row. The seller table then becomes `SellerUpserted` at the user's row. The user's account type becomes SELLER, approved or not, and nothing else about the user changes. |
| SellerViews.GetApprovedSeller | apps/sellers/views.py:39-43 | Succeeds iff the user has exactly one approved seller, and returns it. "Access is denied" iff the user has none. |
| SellerViews.CategoriesMatching | apps/sellers/views.py:48-49 | A None slug matches no category; any other slug matches the categories with that slug. |
| SellerViews.GetCategory | apps/sellers/views.py:48-54 | Succeeds iff exactly one category matches. "Category does not exist!" iff none does; the only other failure is several matches, which cannot happen when slugs are unique. |
| SellerViews.CreationFindsNoCategoryAsWritten | apps/sellers/views.py:79-80 | As written, product creation never finds a category. |
| SellerViews.CreationFindsCategory | apps/sellers/views.py:79-80 | Reading the nested slug finds the category with the submitted slug. |
| SellerViews.NewProductIsValid | apps/sellers/views.py:81-83 | The created product satisfies the column bounds, carries the slug of its name, has no old price, and has stock 5 when none was given. |
| SellerViews.CreateSellerProduct | apps/sellers/views.py:74-85 | As corrected in Findings row 3. Outcomes, in order, each iff the earlier checks passed: the body's errors; "Access is denied" iff the user has no approved seller, or a lookup error iff several; "Category does not exist!" iff no category has the submitted slug, or a lookup error iff several do. Otherwise one product is added, with that seller and that category. Nothing changes on any error. |
| SellerViews.SellerProductGetObject | apps/sellers/views.py:91-98 | Every outcome is an iff. A lookup error iff several products have the slug. Then "Access is denied" iff the user has no approved seller, or a lookup error iff several. Then a missing product iff none has the slug. Otherwise the product with that slug is returned, whoever's it is. |
| ProfileViews.Deactivate | apps/profiles/views.py:46-50 | A signed-in caller's row gets `is_active` false, with every other column and every row kept. An anonymous caller is refused. |
| ProfileViews.UpdateProfile | apps/profiles/views.py:38-39 | Each of first name, last name and avatar that the body carries is written, the names stripped of surrounding whitespace. A column the body leaves out keeps its stored value. Email and account type are never changed, and no other row changes. An anonymous caller is refused. |
| ProfileViews.AddressesOf | apps/profiles/views.py:57-58 | The listing is exactly the caller's addresses. |
| ProfileViews.CreateKeepsDistinct | apps/profiles/views.py:77 | Storing an address only when no identical row exists keeps address rows distinct. |
| ProfileViews.DistinctAddressesOneMatch | apps/profiles/views.py:77 | With distinct rows, get_or_create matches at most one row. |
| ProfileViews.CreateAddress | apps/profiles/views.py:73-79 | An anonymous caller is refused, then an invalid body with its failing fields. Then a get_or_create error iff several identical rows exist. Otherwise creation succeeds with status 201: an identical address of the caller is returned unchanged, or else exactly one new row is stored. Rows stay distinct, and with distinct rows the get_or_create error cannot happen. |
| ProfileViews.GetAddress | apps/profiles/views.py:87-96 | Found iff the id is stored and the address is the caller's. Otherwise "Shipping Address does not exist!". |
| ProfileViews.SpliceKeepsNewestFirst | apps/profiles/views.py:131 | Inserting an order after every order at least as new keeps the list newest first. |
| ProfileViews.InsertNewest | apps/profiles/views.py:131 | The insertion keeps the list newest first and adds exactly the one order. |
| ProfileViews.OrdersNewestFirst | apps/profiles/views.py:127-132 | The listing holds every order of every user exactly once, sorted newest first by creation time. |
| ProfileViews.RefIdentifiesOrder | apps/profiles/views.py:149 | With unique tx_refs, a tx_ref names at most one order. |
| ProfileViews.GetOrderItems | apps/profiles/views.py:148-157 | Outcomes, each iff the earlier checks passed: an anonymous caller is refused; "Order does not exist!" iff no order has the tx_ref, or a lookup error iff several do; a non-staff caller who does not own the order is refused. Otherwise the result is exactly the lines attached to that order. |

## Left out

- UpdateProfile: the User model is not part of this model, so the profile serializer's constraints on the name columns (max_length, whether a field is required or may be blank) and the avatar's image check are not modelled. Every field is taken as optional, and a present value is accepted.
- Deactivate, UpdateProfile: the object check runs on the caller's own user row, and the model treats that row as owned by the caller. The `user` attribute IsOwner reads on a user row belongs to the User model, which is not part of this model.
- The User, Seller, Order, OrderItem and Review models are not part of this model. Their rows keep only the columns the modelled code reads or writes. Assumed defaults: account type BUYER, active, not staff, empty avatar.
- `get_total`, `get_cart_subtotal` and `get_cart_total` are not part of this model, so their amounts are inputs of the projections. The float conversion in `CheckItemOrderSerializer` is left out.
- GetOrNone: the `get_or_none` manager method is not part of this model. A match on several rows is taken to raise, as Django's `get` does, and is an error outcome of every lookup. The plain `Product.objects` manager is assumed to offer the method as well.
- Several views return error objects instead of raising them, and then crash on them. Each is an error outcome that stops the operation; the crash that would follow is not modelled.
- CreateSellerProduct: `get_seller`'s "Access is denied" is returned, not raised, so `is_valid` runs after it and an invalid body is refused first. The model then reports the missing seller before looking up the category. The source would look the category up and crash in `Product.objects.create`.
- Checkout: the order's tx_ref is drawn by `generate_unique_code` over the stored tx_refs. The Order model that does this is not part of this model. When the finite oracle runs out, the model returns an extra `CodesExhausted` error.
- Checkout: the address lookup is by id alone, not scoped to the caller, as the source does it.
- GenerateUniqueCode: the source retries without bound. Here the random draws are a finite sequence, and `None` means they ran out.
- ReviewPost, ReviewDestroy: IsReviewer's request check refuses every POST and DELETE, so the framework never runs these handler bodies. They are modelled as written for the case where it would.
- ReviewPost, GetReviews, ReviewDestroy: an anonymous caller makes the source raise when it writes or filters reviews by that user. The model reports this as the error `AnonymousReviewer`, after the product lookup, and does not model the exception itself.
- Raising permission checks: where a check reads a missing `request.user.seller` or filters by an anonymous user, the source raises. The model gives the verdict `Raises`, and the views report it as an error outcome. Which exception is raised is not modelled.
- ReviewPost: `CreateReviewSerializer` and `ReviewSerializer` are not part of this model, so the review content arrives validated.
- ToggleCart, Checkout, ApplyAsSeller, CreateSellerProduct: these views set no permission class, and an anonymous caller makes the source fail at its first query. The model takes the caller's user id, so it covers signed-in callers only.
- Review listing order: the `sort` ordering filter on review listings is not modelled; listings are sets.
- OrdersNewestFirst: ties in creation time may come out in any order.
- The `select_related`/`prefetch_related` eager loading has no observable effect and is left out.
- ApplyAsSeller: the seller serializer's field validation is not modelled; the columns arrive validated, and the slug a new seller row receives is a parameter.
- SellerProductView: `put` and `delete` go through the generic update and destroy mixins. Only `get_object`, which decides what they act on, is modelled.
- SellerProductsView.get_queryset filters by `self.get_object()`, which this view does not override. It is left out.
- Soft delete through `is_deleted`, image fields, and the integer range of `is_stock` are not modelled.
- Register: the User model is not part of this model, so the max_length of its e-mail column is not checked. E-mail uniqueness is checked where the registration serializer checks it; the database's unique constraint when the user manager saves a row is not modelled.
- Character fields: the serializers' refusal of surrogate characters is not modelled; a Dafny character cannot be a surrogate.
- SaveCategory: `slugify` is a parameter. AutoSlugField also cuts a slug to the column's max_length of 50, shortening the base so that a suffix fits, and falls back to the model name when the name is empty; neither is modelled.
- Framework services are uninterpreted parameters: `validate_email`, `validate_password`, `normalize_email`, `set_password` hashing and AutoSlugField slug derivation. JWT signing and the parent token's claims are a map passed in.
- ParseInt, FilterProducts: `int()` also accepts underscores between digits and non-ASCII digits. The model accepts only ASCII digits with an optional sign, surrounded by the whitespace `int()` skips.
- HTTP status codes and messages appear only where the code sets them.
- ValidateSuperuser: a given `is_staff` is recorded only by its truthiness. An explicit None, 0 or "" is the same as false and is refused, as in the source. The value `create_user` would store for a truthy non-boolean is not modelled.
- ToggleCart, ReviewPost: that the write keeps one line or review per user and product is proved about `Toggled` and `Upserted` (ToggleKeepsOneLine, UpsertKeepsOneReview), not restated in the methods' contracts.

## Findings

| source | as written | input that shows it | evidently intended | confidence | as-written member | corrected member |
|---|---|---|---|---|---|---|
| apps/shop/serializers.py:72-73 | `shipping_id` is bound to the field class, not to a field instance, so the serializer declares no field and `shipping_id` never reaches the view | a non-empty cart and the body `{"shipping_id": <id of a stored address>}`: the lookup gets None and reports "No shipping address with that ID" | declare `shipping_id` as a required field instance, so that the id reaches the lookup | high; not executed | ShopSerializers.CheckoutShippingIdAsWritten, ShopViews.CheckoutFindsNoAddressAsWritten | ShopSerializers.CheckoutShippingId, ShopViews.CheckoutFindsAddress |
| apps/shop/views.py:181-183 | CartView sets no `serializer_class` (only `get_serializer_class` is overridden), so serializing a kept line calls None after the line has been written | a POST with a valid product slug and quantity 2 | serialize the line with `OrderItemSerializer` (through `get_serializer_class`) and reply "Item Added To Cart"/"Item Updated In Cart" | high; not executed | ShopViews.CartReplyAsWritten, ShopViews.KeptLineCrashesAsWritten | ShopViews.CartReplyOf |
| apps/sellers/views.py:79-80 | `source="category.slug"` (apps/shop/serializers.py:33) files the slug under `data["category"]["slug"]`, but the view pops "category_slug", gets None, and the category lookup always fails | an approved seller posting a valid product whose `category_slug` names an existing category: "Category does not exist!" | read the slug from the nested "category" entry | high; not executed | ShopSerializers.CategorySlugAsWritten, SellerViews.CreationFindsNoCategoryAsWritten | ShopSerializers.CategorySlugOf, SellerViews.CreationFindsCategory |

=== FILE: account_serializers.dfy ===
/** The account serializers: the claims added to an issued token, and the
    registration serializer's field checks and row creation. Token signing
    and the claims the parent serializer puts in are outside the model: the
    parent's claims come in as a map. */
module AccountSerializers {
  import opened Core
  import opened Domain
  import opened Database
  import opened UserManager

  /** MyTokenObtainPairSerializer.get_token: staff get group "admin" and no
      role; everyone else gets group "user" and their account type as role.
      Every other claim is the parent's, unchanged. */
  method GetToken(user: User, parent: map<string, string>) returns (token: map<string, string>)
    ensures "group" in token && token["group"] == (if user.isStaff then "admin" else "user")
    ensures !user.isStaff ==> "role" in token && token["role"] == AccountTypeName(user.accountType)
    ensures user.isStaff ==> ("role" in token <==> "role" in parent)
    ensures user.isStaff && "role" in parent ==> token["role"] == parent["role"]
    ensures forall k :: k != "group" && k != "role" ==> (k in token <==> k in parent)
    ensures forall k :: k in token && k != "group" && k != "role" ==> k in parent && token[k] == parent[k]
  {
    token := parent;
    if user.isStaff {
      token := token["group" := "admin"];
    } else {
      token := token["group" := "user"];
      token := token["role" := AccountTypeName(user.accountType)];
    }
  }

  /** CreateUserSerializer.validate_password: the framework's password
      validation, the value passing through unchanged. It runs on the value
      the password field has already cleaned. */
  function ValidatePassword(value: string, fw: Framework): (r: Option<string>)
    ensures r.Some? <==> fw.isValidPassword(value)
    ensures r.Some? ==> r.value == value
  {
    if fw.isValidPassword(value) then Some(value) else None
  }

  /** The password column's max_length, which the model serializer copies
      onto its password field. */
  const MaxPassword: nat := 128

  /** No stored user has the address (the unique e-mail column gives the
      e-mail field a uniqueness validator, an exact match). */
  predicate EmailFree(users: map<Id, User>, email: string)
  {
    forall k :: k in users ==> users[k].email != email
  }

  /** The e-mail field: present and not blank once stripped, a valid address,
      and not yet taken. */
  predicate RegisterEmailOk(users: map<Id, User>, email: Option<string>, fw: Framework)
  {
    TextPresent(email) && fw.isValidEmail(Strip(email.value)) && EmailFree(users, Strip(email.value))
  }

  /** The password field: present, not blank and within max_length once
      stripped, and then accepted by validate_password. */
  predicate RegisterPasswordOk(password: Option<string>, fw: Framework)
  {
    TextOk(password, MaxPassword) && ValidatePassword(Strip(password.value), fw).Some?
  }

  /** The fields CreateUserSerializer refuses; they are reported together. */
  function RegisterErrors(users: map<Id, User>, email: Option<string>, password: Option<string>, fw: Framework): set<string>
  {
    (if RegisterEmailOk(users, email, fw) then {} else {"email"})
    + (if RegisterPasswordOk(password, fw) then {} else {"password"})
  }

  /** The row CreateUserSerializer.create saves: only the email and the hashed
      password are set; every other column keeps the model's default. */
  function RegisteredUser(email: string, password: string, fw: Framework): User
  {
    User(email, "", "", fw.hashPassword(password), BUYER, false, true, "")
  }

  /** Registration: the body's two fields are validated together before
      create runs, and create saves the cleaned email with the cleaned
      password hashed. */
  method Register(db: Db, email: Option<string>, password: Option<string>, fw: Framework) returns (r: Result<Id, set<string>>)
    requires db.Valid()
    modifies db`users, db`nextId
    ensures db.Valid()
    ensures r.Ok? <==> RegisterEmailOk(old(db.users), email, fw) && RegisterPasswordOk(password, fw)
    ensures r.Err? ==> r.error != {} && r.error <= {"email", "password"}
    ensures r.Err? ==> ("email" in r.error <==> !RegisterEmailOk(old(db.users), email, fw))
    ensures r.Err? ==> ("password" in r.error <==> !RegisterPasswordOk(password, fw))
    ensures r.Err? ==> db.users == old(db.users)
    ensures r.Ok? ==> r.value !in old(db.users)
    ensures r.Ok? ==> db.users == old(db.users)[r.value := RegisteredUser(Strip(email.value), Strip(password.value), fw)]
  {
    var errors := RegisterErrors(db.users, email, password, fw);
    if errors != {} {
      return Err(errors);
    }
    var id := db.FreshId();
    db.users := db.users[id := RegisteredUser(Strip(email.value), Strip(password.value), fw)];
    r := Ok(id);
  }

  predicate EmailsUnique(users: map<Id, User>)
  {
    forall k, k' :: k in users && k' in users && k != k' ==> users[k].email != users[k'].email
  }

  /** A registration that passes the e-mail field keeps e-mail addresses
      unique among stored users. */
  lemma RegistrationKeepsEmailsUnique(users: map<Id, User>, id: Id, email: Option<string>, password: string, fw: Framework)
    requires EmailsUnique(users) && id !in users
    requires RegisterEmailOk(users, email, fw)
    ensures EmailsUnique(users[id := RegisteredUser(Strip(email.value), password, fw)])
  {
  }

  /** Registration does not go through the user manager: the row it saves has
      no names, which validate_user would refuse. */
  lemma RegistrationBypassesManager(email: string, password: string, fw: Framework)
    ensures RegisteredUser(email, password, fw).firstName == ""
    ensures ValidateUser(RegisteredUser(email, password, fw).firstName, RegisteredUser(email, password, fw).lastName,
                         email, password, fw) == Some(ValueError(NeedFirstName))
    ensures RegisteredUser(email, password, fw).password == fw.hashPassword(password)
  {
  }
}

=== FILE: common_permissions.dfy ===
/** The shared permission classes: IsOwner (signed in; the object is one's own
    or one is staff) and IsSeller (an approved seller account or staff; the
    object belongs to one's seller or one is staff). */
module CommonPermissions {
  import opened Core
  import opened Domain

  /** IsOwner.has_permission */
  predicate IsOwnerHasPermission(req: Requester)
  {
    req.IsAuthenticated()
  }

  /** IsOwner.has_object_permission, for an object whose `user` is `owner`. */
  predicate IsOwnerHasObjectPermission(req: Requester, owner: Id)
  {
    (req.Member? && owner == req.id) || req.IsStaff()
  }

  /** IsSeller.has_permission. The conjunction stops at the first false
      operand, so `request.user.seller` is read only for a signed-in user with
      the seller account type, and raises when that user has no seller row. */
  function IsSellerHasPermission(req: Requester): Verdict
  {
    if req.Member? && req.user.accountType == SELLER && req.seller.None? then Raises
    else if || (&& req.Member?
                && req.user.accountType == SELLER
                && req.seller.value.isApproved)
            || req.IsStaff() then Granted
    else Denied
  }

  /** IsSeller.has_object_permission, for an object whose `seller` is
      `objSeller` (nullable). `request.user.seller` is read before anything
      else, so it raises for an anonymous user and for a user without a
      seller row, staff included. */
  function IsSellerHasObjectPermission(req: Requester, objSeller: Option<Id>): Verdict
  {
    if !req.Member? || req.seller.None? then Raises
    else if objSeller == Some(req.seller.value.id) || req.user.isStaff then Granted
    else Denied
  }

  /** Staff pass both IsOwner checks whatever the object; they pass both
      IsSeller checks too, except where reading their missing seller row
      raises. */
  lemma StaffPassAll(req: Requester, owner: Id, objSeller: Option<Id>)
    requires req.IsStaff()
    ensures IsOwnerHasPermission(req) && IsOwnerHasObjectPermission(req, owner)
    ensures IsSellerHasPermission(req) != Denied
    ensures IsSellerHasPermission(req) == Raises <==>
      req.user.accountType == SELLER && req.seller.None?
    ensures IsSellerHasObjectPermission(req, objSeller) != Denied
    ensures IsSellerHasObjectPermission(req, objSeller) == Raises <==> req.seller.None?
  {
  }

  /** An anonymous request passes none of them: it is refused by three and
      makes the IsSeller object check raise. */
  lemma AnonymousPassesNone(owner: Id, objSeller: Option<Id>)
    ensures !IsOwnerHasPermission(Anonymous) && !IsOwnerHasObjectPermission(Anonymous, owner)
    ensures IsSellerHasPermission(Anonymous) == Denied
    ensures IsSellerHasObjectPermission(Anonymous, objSeller) == Raises
  {
  }

  /** For a signed-in user who is not staff, an object passes IsOwner exactly
      when it is that user's own. */
  lemma OwnerObjectIsOwnObject(req: Requester, owner: Id)
    requires req.Member? && !req.user.isStaff
    ensures IsOwnerHasObjectPermission(req, owner) <==> owner == req.id
  {
  }

  /** For a user who is not staff, the seller gate needs a seller account type
      and an approved seller; an unapproved seller is refused exactly as the
      same user with a buyer account would be, and a seller account without a
      seller row makes the check raise. */
  lemma SellerGateNeedsApproval(req: Requester)
    requires req.Member? && !req.user.isStaff
    ensures IsSellerHasPermission(req) == Granted <==>
      req.user.accountType == SELLER && req.seller.Some? && req.seller.value.isApproved
    ensures IsSellerHasPermission(req) == Raises <==>
      req.user.accountType == SELLER && req.seller.None?
    ensures req.seller.Some? && !req.seller.value.isApproved ==>
      && IsSellerHasPermission(req) == Denied
      && IsSellerHasPermission(req) == IsSellerHasPermission(req.(user := req.user.(accountType := BUYER)))
  {
  }

  /** For a signed-in user who is not staff, an object passes IsSeller exactly
      when its seller is the user's own seller; without a seller row the
      check raises. */
  lemma SellerObjectIsOwnSellers(req: Requester, objSeller: Option<Id>)
    requires req.Member? && !req.user.isStaff
    ensures IsSellerHasObjectPermission(req, objSeller) == Granted <==>
      req.seller.Some? && objSeller == Some(req.seller.value.id)
    ensures IsSellerHasObjectPermission(req, objSeller) == Raises <==> req.seller.None?
  {
  }
}

=== FILE: core.dfy ===
/** Shared vocabulary of the shop backend: optional values, results, primary
    keys, the outcome of a lookup by field values, and the framework services
    the application calls without defining them. */
module Core {

  datatype Option<T> = None | Some(value: T)

  datatype Result<T, E> = Ok(value: T) | Err(error: E)

  /** Primary key of a row in any table. */
  type Id = nat

  /** A decimal amount with two places after the point, as a whole number of
      hundredths. */
  type Cents = int

  /** What a `get_or_none(field=value, ...)` lookup finds: nothing (the manager
      returns None), exactly one row, or several rows (the underlying `get`
      raises MultipleObjectsReturned). */
  datatype Match = NoMatch | OneMatch(id: Id) | ManyMatches

  /** The lookup itself, given the keys of the rows that match the filter. */
  method GetOrNone(matches: set<Id>) returns (m: Match)
    ensures m == NoMatch <==> matches == {}
    ensures m.OneMatch? ==> matches == {m.id}
    ensures m == ManyMatches ==> |matches| >= 2
  {
    if matches == {} {
      return NoMatch;
    }
    var id :| id in matches;
    if matches == {id} {
      m := OneMatch(id);
    } else {
      var other :| other in matches && other != id;
      assert other in matches - {id};
      assert |matches - {id}| == |matches| - 1;
      m := ManyMatches;
    }
  }

  /** Services of the web framework that the application relies on but does
      not define: e-mail and password validation, e-mail normalisation,
      password hashing (`set_password`) and slug derivation (AutoSlugField). */
  datatype Framework = Framework(
    isValidEmail: string -> bool,
    isValidPassword: string -> bool,
    normalizeEmail: string -> string,
    hashPassword: string -> string,
    slugify: string -> string)

  // ---- Text as Python sees it ----

  /** Python's `str.isspace()`: the characters `str.strip()` removes from
      both ends of a string. */
  predicate IsSpace(c: char)
  {
    var n := c as int;
    || 0x09 <= n <= 0x0D || 0x1C <= n <= 0x20 || n == 0x85 || n == 0xA0 || n == 0x1680
    || 0x2000 <= n <= 0x200A || n == 0x2028 || n == 0x2029 || n == 0x202F || n == 0x205F
    || n == 0x3000
  }

  function TrimStart(s: string): string
  {
    if |s| > 0 && IsSpace(s[0]) then TrimStart(s[1..]) else s
  }

  function TrimEnd(s: string): string
  {
    if |s| > 0 && IsSpace(s[|s| - 1]) then TrimEnd(s[..|s| - 1]) else s
  }

  /** TrimStart drops exactly the leading whitespace. */
  lemma {:induction false} TrimStartShape(s: string)
    ensures var r := TrimStart(s);
      && |r| <= |s| && r == s[|s| - |r|..] && (r == [] || !IsSpace(r[0]))
      && forall i :: 0 <= i < |s| - |r| ==> IsSpace(s[i])
  {
    if |s| > 0 && IsSpace(s[0]) {
      TrimStartShape(s[1..]);
    }
  }

  /** TrimEnd drops exactly the trailing whitespace. */
  lemma {:induction false} TrimEndShape(s: string)
    ensures var r := TrimEnd(s);
      && |r| <= |s| && r == s[..|r|] && (r == [] || !IsSpace(r[|r| - 1]))
      && forall i :: |r| <= i < |s| ==> IsSpace(s[i])
  {
    if |s| > 0 && IsSpace(s[|s| - 1]) {
      TrimEndShape(s[..|s| - 1]);
    }
  }

  /** `str.strip()`: the string without its leading and trailing whitespace. */
  function Strip(s: string): string
  {
    TrimEnd(TrimStart(s))
  }

  /** Stripping removes only surrounding whitespace: the result is the slice
      of the input between its leading and its trailing whitespace. */
  lemma StripSlice(s: string)
    ensures |TrimStart(s)| <= |s| && |s| - |TrimStart(s)| + |Strip(s)| <= |s|
    ensures Strip(s) == s[|s| - |TrimStart(s)|..|s| - |TrimStart(s)| + |Strip(s)|]
    ensures forall k :: 0 <= k < |s| - |TrimStart(s)| ==> IsSpace(s[k])
    ensures forall k :: |s| - |TrimStart(s)| + |Strip(s)| <= k < |s| ==> IsSpace(s[k])
  {
    var t := TrimStart(s);
    var r := TrimEnd(t);
    TrimStartShape(s);
    TrimEndShape(t);
    var i := |s| - |t|;
    assert t == s[i..];
    assert r == s[i..i + |r|];
    forall k | i + |r| <= k < |s|
      ensures IsSpace(s[k])
    {
      assert s[k] == t[k - i];
    }
  }

  /** A stripped string has no whitespace at either end, so stripping it
      again changes nothing. */
  lemma StripIdempotent(s: string)
    ensures Strip(s) == [] || (!IsSpace(Strip(s)[0]) && !IsSpace(Strip(s)[|Strip(s)| - 1]))
    ensures Strip(Strip(s)) == Strip(s)
  {
    var t := TrimStart(s);
    var r := TrimEnd(t);
    TrimStartShape(s);
    TrimEndShape(t);
    if r != [] {
      assert r[0] == t[0];
      NoSpaceAtEnds(r);
    } else {
      assert TrimStart(r) == r;
    }
  }

  /** A string with no whitespace at either end is its own stripping. */
  lemma NoSpaceAtEnds(s: string)
    requires s != [] && !IsSpace(s[0]) && !IsSpace(s[|s| - 1])
    ensures Strip(s) == s
  {
  }

  predicate IsDigit(c: char)
  {
    '0' <= c <= '9'
  }

  predicate AllDigits(s: string)
  {
    forall i :: 0 <= i < |s| ==> IsDigit(s[i])
  }

  /** The value of a string of decimal digits. */
  function DigitsValue(s: string): nat
    requires AllDigits(s)
  {
    if s == [] then 0
    else 10 * DigitsValue(s[..|s| - 1]) + (s[|s| - 1] as int - '0' as int)
  }

  /** The decimal rendering of a natural number, as `str()` and `%d` write it. */
  function ShowNat(n: nat): string
  {
    if n < 10 then [('0' as int + n) as char]
    else ShowNat(n / 10) + [('0' as int + n % 10) as char]
  }

  lemma {:induction false} ShowNatDigits(n: nat)
    ensures ShowNat(n) != [] && AllDigits(ShowNat(n))
    ensures DigitsValue(ShowNat(n)) == n
  {
    var s := ShowNat(n);
    if n >= 10 {
      ShowNatDigits(n / 10);
      assert s[..|s| - 1] == ShowNat(n / 10);
    }
  }

  // ---- Character fields of the REST framework's serializers ----

  /** A submitted text value as a character field (CharField, EmailField,
      SlugField) cleans it, trim_whitespace being on by default: present,
      something left after stripping, and no NUL character in it. */
  predicate TextPresent(v: Option<string>)
  {
    && v.Some?
    && Strip(v.value) != ""
    && forall i :: 0 <= i < |Strip(v.value)| ==> Strip(v.value)[i] != '\0'
  }

  /** The same with a max_length, which bounds the stripped value. */
  predicate TextOk(v: Option<string>, max: nat)
  {
    TextPresent(v) && |Strip(v.value)| <= max
  }
}

=== FILE: database.dfy ===
/** The store the views work on: one finite map per table, keyed by row id,
    and one counter that issues the ids of new rows. */
module Database {
  import opened Core
  import opened Domain
  import opened ProfileModels
  import opened ShopModels

  class Db {
    var users: map<Id, User>
    var sellers: map<Id, Seller>
    var categories: map<Id, Category>
    var products: map<Id, Product>
    var addresses: map<Id, ShippingAddress>
    var orders: map<Id, Order>
    var items: map<Id, OrderItem>
    var reviews: map<Id, Review>
    var nextId: nat

    /** Every key was issued by the counter, and every order line that names
        an order names one that exists. */
    ghost predicate Valid()
      reads this
    {
      && (forall k :: k in users ==> k < nextId)
      && (forall k :: k in sellers ==> k < nextId)
      && (forall k :: k in categories ==> k < nextId)
      && (forall k :: k in products ==> k < nextId)
      && (forall k :: k in addresses ==> k < nextId)
      && (forall k :: k in orders ==> k < nextId)
      && (forall k :: k in items ==> k < nextId)
      && (forall k :: k in reviews ==> k < nextId)
      && ItemOrdersExist(items, orders)
    }

    constructor()
      ensures Valid()
      ensures users == map[] && sellers == map[] && categories == map[] && products == map[]
      ensures addresses == map[] && orders == map[] && items == map[] && reviews == map[]
    {
      users, sellers, categories, products := map[], map[], map[], map[];
      addresses, orders, items, reviews := map[], map[], map[], map[];
      nextId := 0;
    }

    /** Issues the key of a new row: one no table holds yet. */
    method FreshId() returns (id: Id)
      requires Valid()
      modifies this`nextId
      ensures Valid()
      ensures id == old(nextId) && nextId == id + 1
      ensures id !in users && id !in sellers && id !in categories && id !in products
      ensures id !in addresses && id !in orders && id !in items && id !in reviews
    {
      id := nextId;
      nextId := nextId + 1;
    }
  }

  /** Every order line attached to an order points at an existing order. */
  ghost predicate ItemOrdersExist(items: map<Id, OrderItem>, orders: map<Id, Order>)
  {
    forall k :: k in items && items[k].order.Some? ==> items[k].order.value in orders
  }
}

=== FILE: domain.dfy ===
/** The rows of the tables whose models live outside the modelled source
    (users, sellers, orders, order lines, reviews), and the requesting user as
    the views see it. Only the columns the modelled code reads or writes are
    kept. */
module Domain {
  import opened Core
  import opened ProfileModels

  datatype AccountType = BUYER | SELLER

  /** The stored value of an account type, as it appears in token claims. */
  function AccountTypeName(a: AccountType): string
  {
    match a
    case BUYER => "BUYER"
    case SELLER => "SELLER"
  }

  /** A user row. `password` holds what `set_password` stored. */
  datatype User = User(
    email: string,
    firstName: string,
    lastName: string,
    password: string,
    accountType: AccountType,
    isStaff: bool,
    isActive: bool,
    avatar: string)

  /** The columns a seller application may write: the business name and the
      other writable profile columns, by name. */
  datatype SellerFields = SellerFields(businessName: string, others: map<string, string>)

  /** A seller row: one per user; `slug` and `isApproved` are not written by
      applications. */
  datatype Seller = Seller(user: Id, fields: SellerFields, slug: string, isApproved: bool)

  /** An order line. With `order == None` it is a line of its user's cart. */
  datatype OrderItem = OrderItem(user: Id, product: Id, quantity: nat, order: Option<Id>)

  /** An order: owner, reference code, the shipping snapshot and the time of
      creation. Totals are not stored. */
  datatype Order = Order(user: Id, txRef: string, shipping: ShippingDetails, createdAt: nat)

  /** The columns a review post writes. */
  datatype ReviewContent = ReviewContent(rating: int, text: string)

  datatype Review = Review(user: Id, product: Id, content: ReviewContent)

  /** What `request.user.seller` exposes: its key, its approval and the
      `account_type` attribute read through it. */
  datatype SellerRef = SellerRef(id: Id, isApproved: bool, accountType: string)

  /** The requesting user: anonymous, or a signed-in user with its row and its
      seller, when it has one. */
  datatype Requester =
    | Anonymous
    | Member(id: Id, user: User, seller: Option<SellerRef>)
  {
    predicate IsAuthenticated() { Member? }
    predicate IsStaff() { Member? && user.isStaff }
  }

  /** The outcome of a permission check: it grants, it refuses, or evaluating
      it raises, as reading `request.user.seller` does for a user without a
      seller row and reading or filtering by an anonymous user does. */
  datatype Verdict = Granted | Denied | Raises
}

=== FILE: price_filter.dfy ===
/** The price-range filter of the product listing. Both query parameters must
    parse as integers; a bound of 0 counts as "no bound"; when both bounds are
    set the maximum must exceed the minimum; and a set minimum replaces the
    maximum filter instead of narrowing it. */
module PriceFilter {
  import opened Core
  import opened ShopModels

  datatype FilterError =
    | NotIntegers     // 400: a parameter is missing or not an integer
    | MaxNotAboveMin  // 400: both bounds set and max <= min

  function Message(e: FilterError): string
  {
    match e
    case NotIntegers => "min_price и max_price должны быть целыми числами"
    case MaxNotAboveMin => "Максимальная цена должна быть больше минимальной"
  }

  // ---- Integer parsing: Python's int() on a string ----

  /** The whitespace int() skips around a number: the ASCII space, tab, line
      feed, vertical tab, form feed and carriage return, and every non-ASCII
      character `str.isspace()` accepts. The ASCII separators U+001C to
      U+001F, which `str.isspace()` also accepts, are not skipped. */
  predicate IsIntSpace(c: char)
  {
    IsSpace(c) && !(0x1C <= c as int <= 0x1F)
  }

  function IntTrimStart(s: string): string
  {
    if |s| > 0 && IsIntSpace(s[0]) then IntTrimStart(s[1..]) else s
  }

  function IntTrimEnd(s: string): string
  {
    if |s| > 0 && IsIntSpace(s[|s| - 1]) then IntTrimEnd(s[..|s| - 1]) else s
  }

  /** The text between the whitespace int() skips. */
  function IntStrip(s: string): string
  {
    IntTrimEnd(IntTrimStart(s))
  }

  lemma IntStripUnpadded(s: string)
    requires s != [] && !IsIntSpace(s[0]) && !IsIntSpace(s[|s| - 1])
    ensures IntStrip(s) == s
  {
  }

  /** int(s): surrounding whitespace, an optional sign, then one or more
      decimal digits; anything else is a ValueError (None here). */
  function ParseInt(s: string): Option<int>
  {
    var t := IntStrip(s);
    if |t| > 0 && (t[0] == '+' || t[0] == '-') then
      var body := t[1..];
      if body != [] && AllDigits(body) then
        var magnitude: int := DigitsValue(body);
        Some(if t[0] == '-' then -magnitude else magnitude)
      else None
    else if t != [] && AllDigits(t) then Some(DigitsValue(t))
    else None
  }

  /** A query parameter as int() sees it: an absent one is a TypeError. */
  function ParseParam(param: Option<string>): Option<int>
  {
    if param.None? then None else ParseInt(param.value)
  }

  /** The decimal rendering of an integer, the inverse of ParseInt. */
  function ShowInt(n: int): string
  {
    if n < 0 then "-" + ShowNat(-n) else ShowNat(n)
  }

  /** Every integer, written in decimal, parses back to itself. */
  lemma ParseShow(n: int)
    ensures ParseInt(ShowInt(n)) == Some(n)
  {
    var m: nat := if n < 0 then -n else n;
    ShowNatDigits(m);
    var s := ShowInt(n);
    IntStripUnpadded(s);
    if n < 0 {
      assert s[1..] == ShowNat(m);
    }
  }

  /** int() skips the space and the no-break space around a number, but an
      information separator is not whitespace to it. */
  lemma ParseIntPadding()
    ensures ParseInt(" 5\U{A0}") == Some(5)
    ensures ParseInt("\U{1C}5") == None && ParseInt("5\U{1F}") == None
  {
    IntStripUnpadded("5");
    assert IntStrip("\U{1C}5") == "\U{1C}5";
    assert IntStrip("5\U{1F}") == "5\U{1F}";
  }

  // ---- Filtering ----

  /** `price_current <= bound` with the bound in whole currency units. */
  predicate PriceAtMost(p: Product, bound: int)
  {
    p.priceCurrent <= bound * 100
  }

  /** `price_current >= bound` with the bound in whole currency units. */
  predicate PriceAtLeast(p: Product, bound: int)
  {
    p.priceCurrent >= bound * 100
  }

  /** `a` is `b` with some entries left out, the rest in their order. */
  predicate SubsequenceOf<T(==)>(a: seq<T>, b: seq<T>)
    decreases |b|
  {
    || a == []
    || (&& b != []
        && ((a[0] == b[0] && SubsequenceOf(a[1..], b[1..])) || SubsequenceOf(a, b[1..])))
  }

  lemma {:induction false} SubsequenceOfItself<T>(a: seq<T>)
    ensures SubsequenceOf(a, a)
    decreases |a|
  {
    if a != [] {
      SubsequenceOfItself(a[1..]);
    }
  }

  /** `queryset.filter(price_current__lte=bound)`: each product is kept, as
      often as it occurs, exactly when its price is at most the bound, and
      the kept ones stay in their order. */
  function KeepAtMost(qs: seq<Product>, bound: int): (r: seq<Product>)
    ensures forall p :: multiset(r)[p] == if PriceAtMost(p, bound) then multiset(qs)[p] else 0
    ensures SubsequenceOf(r, qs)
  {
    if qs == [] then []
    else
      assert qs == [qs[0]] + qs[1..];
      var rest := KeepAtMost(qs[1..], bound);
      if PriceAtMost(qs[0], bound) then
        assert ([qs[0]] + rest)[1..] == rest;
        [qs[0]] + rest
      else rest
  }

  /** `queryset.filter(price_current__gte=bound)`. */
  function KeepAtLeast(qs: seq<Product>, bound: int): (r: seq<Product>)
    ensures forall p :: multiset(r)[p] == if PriceAtLeast(p, bound) then multiset(qs)[p] else 0
    ensures SubsequenceOf(r, qs)
  {
    if qs == [] then []
    else
      assert qs == [qs[0]] + qs[1..];
      var rest := KeepAtLeast(qs[1..], bound);
      if PriceAtLeast(qs[0], bound) then
        assert ([qs[0]] + rest)[1..] == rest;
        [qs[0]] + rest
      else rest
  }

  /** Which products the filter lets through once both bounds have parsed:
      a set minimum is the only bound applied; otherwise a set maximum is;
      otherwise every product passes. */
  predicate Admitted(p: Product, max: int, min: int)
  {
    if min != 0 then PriceAtLeast(p, min)
    else if max != 0 then PriceAtMost(p, max)
    else true
  }

  /** ProductsFilterBackend.filter_queryset. */
  function FilterProducts(maxParam: Option<string>, minParam: Option<string>, qs: seq<Product>): (r: Result<seq<Product>, FilterError>)
    ensures r == Err(NotIntegers) <==> ParseParam(maxParam).None? || ParseParam(minParam).None?
    ensures r == Err(MaxNotAboveMin) <==>
      && ParseParam(maxParam).Some? && ParseParam(minParam).Some?
      && ParseParam(maxParam).value != 0 && ParseParam(minParam).value != 0
      && ParseParam(maxParam).value <= ParseParam(minParam).value
    ensures r.Ok? ==>
      forall p :: multiset(r.value)[p] ==
        (if Admitted(p, ParseParam(maxParam).value, ParseParam(minParam).value) then multiset(qs)[p] else 0)
    ensures r.Ok? ==> multiset(r.value) <= multiset(qs)
    ensures r.Ok? ==> SubsequenceOf(r.value, qs)
    ensures r.Ok? && ParseParam(maxParam).value == 0 && ParseParam(minParam).value == 0 ==> r.value == qs
  {
    var maxPrice := ParseParam(maxParam);
    var minPrice := ParseParam(minParam);
    if maxPrice.None? || minPrice.None? then Err(NotIntegers)
    else
      var max, min := maxPrice.value, minPrice.value;
      if max != 0 && min != 0 && max <= min then Err(MaxNotAboveMin)
      else
        var products := if max != 0 then KeepAtMost(qs, max) else qs;
        var products' := if min != 0 then KeepAtLeast(qs, min) else products;
        SubsequenceOfItself(qs);
        Ok(products')
  }

  /** With both bounds set, a product priced above the maximum is still
      returned when it meets the minimum: the minimum filter replaces the
      maximum filter. */
  lemma MinimumDiscardsMaximum(max: int, min: int, qs: seq<Product>, p: Product)
    requires 0 < min < max
    requires p in qs && p.priceCurrent > max * 100
    ensures FilterProducts(Some(ShowInt(max)), Some(ShowInt(min)), qs).Ok?
    ensures p in FilterProducts(Some(ShowInt(max)), Some(ShowInt(min)), qs).value
  {
    ParseShow(max);
    ParseShow(min);
    var r := FilterProducts(Some(ShowInt(max)), Some(ShowInt(min)), qs);
    assert multiset(r.value)[p] == multiset(qs)[p];
  }
}

=== FILE: profile_models.dfy ===
/** The ShippingAddress model: seven contact columns with their length bounds,
    owned by one user and deleted with that user. */
module ProfileModels {
  import opened Core

  const MaxFullName: nat := 255
  /** An EmailField without an explicit max_length holds at most 254 characters. */
  const MaxEmail: nat := 254
  const MaxPhone: nat := 12
  const MaxAddress: nat := 1000
  const MaxCity: nat := 100
  const MaxCountry: nat := 200
  const MaxZipcode: nat := 6

  /** The seven non-key columns of a shipping address; checkout copies exactly
      these onto an order. */
  datatype ShippingDetails = ShippingDetails(
    fullName: string,
    email: string,
    phone: string,
    address: string,
    city: string,
    country: string,
    zipcode: string)

  /** A row of the shipping-address table: its owner and its details. */
  datatype ShippingAddress = ShippingAddress(user: Id, details: ShippingDetails)

  /** Every column within its declared max_length. */
  predicate WithinBounds(d: ShippingDetails)
  {
    && |d.fullName| <= MaxFullName
    && |d.email| <= MaxEmail
    && |d.phone| <= MaxPhone
    && |d.address| <= MaxAddress
    && |d.city| <= MaxCity
    && |d.country| <= MaxCountry
    && |d.zipcode| <= MaxZipcode
  }

  /** No column is blank (none is declared with blank=True). */
  predicate Filled(d: ShippingDetails)
  {
    && d.fullName != "" && d.email != "" && d.phone != "" && d.address != ""
    && d.city != "" && d.country != "" && d.zipcode != ""
  }

  /** The row constraints of the model: bounds, no blanks, a valid e-mail. */
  predicate ValidDetails(d: ShippingDetails, isValidEmail: string -> bool)
  {
    WithinBounds(d) && Filled(d) && isValidEmail(d.email)
  }

  /** A request body for a shipping address; any field may be missing. */
  datatype ShippingInput = ShippingInput(
    fullName: Option<string>,
    email: Option<string>,
    phone: Option<string>,
    address: Option<string>,
    city: Option<string>,
    country: Option<string>,
    zipcode: Option<string>)

  predicate Complete(input: ShippingInput)
  {
    && input.fullName.Some? && input.email.Some? && input.phone.Some?
    && input.address.Some? && input.city.Some? && input.country.Some?
    && input.zipcode.Some?
  }

  /** The details a complete body yields: each value with its surrounding
      whitespace removed, as the serializer's character fields clean it. */
  function Cleaned(input: ShippingInput): ShippingDetails
    requires Complete(input)
  {
    ShippingDetails(Strip(input.fullName.value), Strip(input.email.value), Strip(input.phone.value),
                    Strip(input.address.value), Strip(input.city.value), Strip(input.country.value),
                    Strip(input.zipcode.value))
  }

  /** The e-mail field: a present, non-blank, bounded value whose stripped
      form is a valid address. */
  predicate EmailFieldOk(v: Option<string>, isValidEmail: string -> bool)
  {
    TextOk(v, MaxEmail) && isValidEmail(Strip(v.value))
  }

  /** The names of the fields the model serializer rejects; it reports all of
      them together. */
  function ShippingErrors(input: ShippingInput, isValidEmail: string -> bool): set<string>
  {
    (if TextOk(input.fullName, MaxFullName) then {} else {"full_name"})
    + (if EmailFieldOk(input.email, isValidEmail) then {} else {"email"})
    + (if TextOk(input.phone, MaxPhone) then {} else {"phone"})
    + (if TextOk(input.address, MaxAddress) then {} else {"address"})
    + (if TextOk(input.city, MaxCity) then {} else {"city"})
    + (if TextOk(input.country, MaxCountry) then {} else {"country"})
    + (if TextOk(input.zipcode, MaxZipcode) then {} else {"zipcode"})
  }

  predicate NoNul(s: string)
  {
    forall i :: 0 <= i < |s| ==> s[i] != '\0'
  }

  /** No column holds a NUL character. */
  predicate NulFree(d: ShippingDetails)
  {
    && NoNul(d.fullName) && NoNul(d.email) && NoNul(d.phone) && NoNul(d.address)
    && NoNul(d.city) && NoNul(d.country) && NoNul(d.zipcode)
  }

  /** The serializer refuses no field exactly when the body's stripped values
      form a valid row without a NUL character. */
  lemma NoErrorsIffValid(input: ShippingInput, isValidEmail: string -> bool)
    ensures ShippingErrors(input, isValidEmail) == {} <==>
      Complete(input) && ValidDetails(Cleaned(input), isValidEmail) && NulFree(Cleaned(input))
  {
  }

  /** Validation of a shipping-address body against the model's columns. It
      accepts exactly the bodies whose stripped values form a valid row, and
      then yields that row's details; otherwise it names every failing field
      and no other. */
  function ValidateShipping(input: ShippingInput, isValidEmail: string -> bool): (r: Result<ShippingDetails, set<string>>)
    ensures r.Ok? <==> Complete(input) && ValidDetails(Cleaned(input), isValidEmail) && NulFree(Cleaned(input))
    ensures r.Ok? ==> r.value == Cleaned(input)
    ensures r.Err? ==> r.error != {}
    ensures r.Err? ==> r.error <= {"full_name", "email", "phone", "address", "city", "country", "zipcode"}
    ensures r.Err? ==> ("full_name" in r.error <==> !TextOk(input.fullName, MaxFullName))
    ensures r.Err? ==> ("email" in r.error <==> !EmailFieldOk(input.email, isValidEmail))
    ensures r.Err? ==> ("phone" in r.error <==> !TextOk(input.phone, MaxPhone))
    ensures r.Err? ==> ("address" in r.error <==> !TextOk(input.address, MaxAddress))
    ensures r.Err? ==> ("city" in r.error <==> !TextOk(input.city, MaxCity))
    ensures r.Err? ==> ("country" in r.error <==> !TextOk(input.country, MaxCountry))
    ensures r.Err? ==> ("zipcode" in r.error <==> !TextOk(input.zipcode, MaxZipcode))
  {
    NoErrorsIffValid(input, isValidEmail);
    var errors := ShippingErrors(input, isValidEmail);
    if errors == {} then Ok(Cleaned(input)) else Err(errors)
  }

  /** Two bodies whose values differ only in surrounding whitespace validate
      alike and yield the same row. */
  lemma PaddingIgnored(input: ShippingInput, padded: ShippingInput, isValidEmail: string -> bool)
    requires Complete(input) && Complete(padded)
    requires Cleaned(padded) == Cleaned(input)
    ensures ValidateShipping(padded, isValidEmail) == ValidateShipping(input, isValidEmail)
  {
  }

  /** Every address belongs to a user that exists. */
  predicate OwnersExist(addresses: map<Id, ShippingAddress>, users: set<Id>)
  {
    forall k :: k in addresses ==> addresses[k].user in users
  }

  /** The addresses left when `user` is deleted (on_delete=CASCADE). */
  function DeleteUserCascade(addresses: map<Id, ShippingAddress>, user: Id): (r: map<Id, ShippingAddress>)
    ensures forall k :: k in r <==> k in addresses && addresses[k].user != user
    ensures forall k :: k in r ==> r[k] == addresses[k]
  {
    map k | k in addresses && addresses[k].user != user :: addresses[k]
  }

  /** Deleting a user and cascading leaves no address without an owner. */
  lemma CascadeKeepsOwnership(addresses: map<Id, ShippingAddress>, users: set<Id>, user: Id)
    requires OwnersExist(addresses, users)
    ensures OwnersExist(DeleteUserCascade(addresses, user), users - {user})
  {
  }
}

=== FILE: profile_views.dfy ===
/** The profile views: deactivating and updating one's account, listing,
    creating and fetching one's shipping addresses, listing orders newest
    first, and listing the lines of an order by its reference. All of them sit
    behind IsOwner. */
module ProfileViews {
  import opened Core
  import opened Domain
  import opened ProfileModels
  import opened Database
  import opened CommonPermissions
  import opened ShopViews

  datatype ProfileError =
    | NotAuthenticated                // IsOwner.has_permission refused
    | Forbidden                       // IsOwner.has_object_permission refused
    | BadAddress(fields: set<string>) // 400 from ShippingAddressSerializer
    | ManyAddresses                   // get_or_create matched several rows
    | AddressMissing                  // "Shipping Address does not exist!"
    | OrderMissing                    // 404 "Order does not exist!"
    | ManyOrders                      // the tx_ref lookup matched several orders

  // ---- The account ----

  /** ProfileView.delete: the account is deactivated, not removed. The object
      checked is the caller's own user row. */
  method Deactivate(db: Db, req: Requester) returns (r: Result<string, ProfileError>)
    requires db.Valid()
    requires req.Member? ==> req.id in db.users
    modifies db`users
    ensures db.Valid()
    ensures r.Err? <==> !req.IsAuthenticated()
    ensures r.Err? ==> r == Err(NotAuthenticated) && db.users == old(db.users)
    ensures r.Ok? ==> r.value == "User Account Deactivated"
    ensures r.Ok? ==> db.users == old(db.users)[req.id := old(db.users)[req.id].(isActive := false)]
    ensures db.users.Keys == old(db.users.Keys)
  {
    if !IsOwnerHasPermission(req) {
      return Err(NotAuthenticated);
    }
    if !IsOwnerHasObjectPermission(req, req.id) {
      return Err(Forbidden);
    }
    db.users := db.users[req.id := db.users[req.id].(isActive := false)];
    r := Ok("User Account Deactivated");
  }

  /** ProfileView.put: each writable column the body carries is replaced, the
      names as their character fields clean them (stripped of surrounding
      whitespace), and a column the body leaves out keeps its stored value;
      the email and the account type are read-only and never change. */
  method UpdateProfile(db: Db, req: Requester, firstName: Option<string>, lastName: Option<string>, avatar: Option<string>)
    returns (r: Result<User, ProfileError>)
    requires db.Valid()
    requires req.Member? ==> req.id in db.users
    modifies db`users
    ensures db.Valid()
    ensures r.Err? <==> !req.IsAuthenticated()
    ensures r.Err? ==> db.users == old(db.users)
    ensures r.Ok? ==> db.users == old(db.users)[req.id := r.value]
    ensures r.Ok? ==> r.value.email == old(db.users)[req.id].email
    ensures r.Ok? ==> r.value.accountType == old(db.users)[req.id].accountType
    ensures r.Ok? ==> r.value.firstName == if firstName.Some? then Strip(firstName.value) else old(db.users)[req.id].firstName
    ensures r.Ok? ==> r.value.lastName == if lastName.Some? then Strip(lastName.value) else old(db.users)[req.id].lastName
    ensures r.Ok? ==> r.value.avatar == if avatar.Some? then avatar.value else old(db.users)[req.id].avatar
    ensures r.Ok? ==> r.value == old(db.users)[req.id].(firstName := r.value.firstName, lastName := r.value.lastName,
                                                       avatar := r.value.avatar)
  {
    if !IsOwnerHasPermission(req) {
      return Err(NotAuthenticated);
    }
    if !IsOwnerHasObjectPermission(req, req.id) {
      return Err(Forbidden);
    }
    var updated := db.users[req.id];
    if firstName.Some? {
      updated := updated.(firstName := Strip(firstName.value));
    }
    if lastName.Some? {
      updated := updated.(lastName := Strip(lastName.value));
    }
    if avatar.Some? {
      updated := updated.(avatar := avatar.value);
    }
    db.users := db.users[req.id := updated];
    r := Ok(updated);
  }

  // ---- Shipping addresses ----

  /** ShippingAddressesView.get_queryset: exactly the caller's addresses. */
  function AddressesOf(addresses: map<Id, ShippingAddress>, user: Id): (r: map<Id, ShippingAddress>)
    ensures forall k :: k in r <==> k in addresses && addresses[k].user == user
    ensures forall k :: k in r ==> r[k] == addresses[k]
  {
    map k | k in addresses && addresses[k].user == user :: addresses[k]
  }

  /** The rows `get_or_create(user=user, **details)` matches. */
  function SameAddress(addresses: map<Id, ShippingAddress>, row: ShippingAddress): set<Id>
  {
    set k | k in addresses && addresses[k] == row
  }

  /** No two rows of the address table are identical. */
  predicate AddressesDistinct(addresses: map<Id, ShippingAddress>)
  {
    forall k, k' :: k in addresses && k' in addresses && addresses[k] == addresses[k'] ==> k == k'
  }

  /** Storing a row only when no identical row exists keeps rows distinct. */
  lemma CreateKeepsDistinct(addresses: map<Id, ShippingAddress>, key: Id, row: ShippingAddress)
    requires AddressesDistinct(addresses)
    requires key !in addresses && SameAddress(addresses, row) == {}
    ensures AddressesDistinct(addresses[key := row])
  {
    assert forall k :: k in addresses && addresses[k] == row ==> k in SameAddress(addresses, row);
  }

  /** With distinct rows, get_or_create matches at most one row. */
  lemma DistinctAddressesOneMatch(addresses: map<Id, ShippingAddress>, row: ShippingAddress)
    requires AddressesDistinct(addresses)
    ensures |SameAddress(addresses, row)| <= 1
  {
    var s := SameAddress(addresses, row);
    if s != {} {
      var k :| k in s;
      assert s == {k};
    }
  }

  /** ShippingAddressesView.post: an identical address of the caller is
      returned instead of being duplicated; otherwise a new row is stored. The
      reply is 201 either way. */
  method CreateAddress(db: Db, req: Requester, input: ShippingInput, isValidEmail: string -> bool)
    returns (r: Result<Id, ProfileError>, status: int)
    requires db.Valid()
    modifies db`addresses, db`nextId
    ensures db.Valid()
    ensures !req.IsAuthenticated() ==> r == Err(NotAuthenticated)
    ensures req.IsAuthenticated() && ValidateShipping(input, isValidEmail).Err? ==>
      r == Err(BadAddress(ValidateShipping(input, isValidEmail).error))
    ensures r.Err? && r.error.BadAddress? ==> req.IsAuthenticated() && ValidateShipping(input, isValidEmail).Err?
    ensures r == Err(ManyAddresses) <==>
      && req.Member? && ValidateShipping(input, isValidEmail).Ok?
      && |SameAddress(old(db.addresses), ShippingAddress(req.id, ValidateShipping(input, isValidEmail).value))| >= 2
    ensures r.Ok? <==>
      && req.Member? && ValidateShipping(input, isValidEmail).Ok?
      && |SameAddress(old(db.addresses), ShippingAddress(req.id, ValidateShipping(input, isValidEmail).value))| <= 1
    ensures AddressesDistinct(old(db.addresses)) ==> r != Err(ManyAddresses)
    ensures r.Err? ==> db.addresses == old(db.addresses)
    ensures r.Ok? ==> status == 201
    ensures r.Ok? ==>
      r.value in db.addresses && db.addresses[r.value] == ShippingAddress(req.id, ValidateShipping(input, isValidEmail).value)
    ensures r.Ok? && r.value in old(db.addresses) ==>
      SameAddress(old(db.addresses), db.addresses[r.value]) == {r.value} && db.addresses == old(db.addresses)
    ensures r.Ok? && r.value !in old(db.addresses) ==>
      && SameAddress(old(db.addresses), db.addresses[r.value]) == {}
      && db.addresses == old(db.addresses)[r.value := db.addresses[r.value]]
    ensures AddressesDistinct(old(db.addresses)) ==> AddressesDistinct(db.addresses)
  {
    status := 0;
    if !IsOwnerHasPermission(req) {
      return Err(NotAuthenticated), status;
    }
    var data := ValidateShipping(input, isValidEmail);
    if data.Err? {
      return Err(BadAddress(data.error)), status;
    }
    var row := ShippingAddress(req.id, data.value);
    if AddressesDistinct(db.addresses) {
      DistinctAddressesOneMatch(db.addresses, row);
    }
    var found := GetOrNone(SameAddress(db.addresses, row));
    match found {
      case ManyMatches => return Err(ManyAddresses), status;
      case OneMatch(k) =>
        assert k in SameAddress(db.addresses, row);
        r := Ok(k);
      case NoMatch =>
        var k := db.FreshId();
        if AddressesDistinct(db.addresses) {
          CreateKeepsDistinct(db.addresses, k, row);
        }
        db.addresses := db.addresses[k := row];
        r := Ok(k);
    }
    status := 201;
  }

  /** ShippingAddressViewID.get_object: the lookup is confined to the
      caller's addresses, so an address of another user is as missing as an
      unknown id. */
  function GetAddress(addresses: map<Id, ShippingAddress>, req: Requester, id: Id): (r: Result<ShippingAddress, ProfileError>)
    ensures r.Ok? <==> req.Member? && id in addresses && addresses[id].user == req.id
    ensures r.Ok? ==> r.value == addresses[id]
    ensures req.Member? && r.Err? ==> r == Err(AddressMissing)
    ensures !req.Member? ==> r == Err(NotAuthenticated)
  {
    if !IsOwnerHasPermission(req) then Err(NotAuthenticated)
    else
      var mine := AddressesOf(addresses, req.id);
      if id !in mine then Err(AddressMissing)
      else if !IsOwnerHasObjectPermission(req, mine[id].user) then Err(Forbidden)
      else Ok(mine[id])
  }

  // ---- Orders ----

  /** `s` lists orders by decreasing creation time. */
  predicate NewestFirst(orders: map<Id, Order>, s: seq<Id>)
  {
    && (forall i :: 0 <= i < |s| ==> s[i] in orders)
    && (forall i, j :: 0 <= i < j < |s| ==> orders[s[i]].createdAt >= orders[s[j]].createdAt)
  }

  /** Putting `k` where every order before it is at least as new and the
      next one is older keeps a list newest first. */
  lemma SpliceKeepsNewestFirst(orders: map<Id, Order>, s: seq<Id>, i: nat, k: Id)
    requires k in orders && NewestFirst(orders, s) && i <= |s|
    requires forall j :: 0 <= j < i ==> orders[s[j]].createdAt >= orders[k].createdAt
    requires i < |s| ==> orders[s[i]].createdAt < orders[k].createdAt
    ensures NewestFirst(orders, s[..i] + [k] + s[i..])
  {
    var t := s[..i] + [k] + s[i..];
    assert forall j :: 0 <= j < i ==> t[j] == s[j];
    assert forall j :: i < j < |t| ==> t[j] == s[j - 1];
    forall a, b | 0 <= a < b < |t|
      ensures orders[t[a]].createdAt >= orders[t[b]].createdAt
    {
      if b > i && a <= i {
        assert orders[s[i]].createdAt >= orders[s[b - 1]].createdAt;
      }
    }
  }

  /** Puts `k` into a newest-first list, after every order at least as new. */
  method InsertNewest(orders: map<Id, Order>, s: seq<Id>, k: Id) returns (t: seq<Id>)
    requires k in orders && NewestFirst(orders, s)
    ensures NewestFirst(orders, t)
    ensures multiset(t) == multiset(s) + multiset{k}
  {
    var i := 0;
    while i < |s| && orders[s[i]].createdAt >= orders[k].createdAt
      invariant 0 <= i <= |s|
      invariant forall j :: 0 <= j < i ==> orders[s[j]].createdAt >= orders[k].createdAt
    {
      i := i + 1;
    }
    SpliceKeepsNewestFirst(orders, s, i, k);
    t := s[..i] + [k] + s[i..];
    assert s == s[..i] + s[i..];
  }

  /** OrdersView.get_queryset: every order, of every user, newest first. */
  method OrdersNewestFirst(db: Db, req: Requester) returns (r: Result<seq<Id>, ProfileError>)
    ensures r.Err? <==> !req.IsAuthenticated()
    ensures r.Err? ==> r == Err(NotAuthenticated)
    ensures r.Ok? ==> NewestFirst(db.orders, r.value)
    ensures r.Ok? ==> (forall k :: k in r.value <==> k in db.orders) && |r.value| == |db.orders|
  {
    if !IsOwnerHasPermission(req) {
      return Err(NotAuthenticated);
    }
    var rest := db.orders.Keys;
    var sorted: seq<Id> := [];
    while rest != {}
      invariant rest <= db.orders.Keys
      invariant NewestFirst(db.orders, sorted)
      invariant forall k :: k in sorted <==> k in db.orders && k !in rest
      invariant |sorted| + |rest| == |db.orders.Keys|
      decreases |rest|
    {
      var k :| k in rest;
      sorted := InsertNewest(db.orders, sorted, k);
      assert forall x :: x in sorted <==> x in multiset(sorted);
      rest := rest - {k};
    }
    assert |db.orders.Keys| == |db.orders|;
    r := Ok(sorted);
  }

  /** The orders whose reference is `txRef`. */
  function OrdersWithRef(orders: map<Id, Order>, txRef: string): set<Id>
  {
    set k | k in orders && orders[k].txRef == txRef
  }

  /** With unique references, a reference names at most one order. */
  lemma RefIdentifiesOrder(orders: map<Id, Order>, txRef: string)
    requires TxRefsUnique(orders)
    ensures |OrdersWithRef(orders, txRef)| <= 1
  {
    var s := OrdersWithRef(orders, txRef);
    if s != {} {
      var k :| k in s;
      assert s == {k};
    }
  }

  /** OrderItemsView.get_queryset: the order named by `txRef` must exist and
      pass IsOwner; its lines are then exactly the lines attached to it. On
      success `order` is that order. */
  method GetOrderItems(db: Db, req: Requester, txRef: string) returns (r: Result<set<Id>, ProfileError>, order: Id)
    ensures r == Err(NotAuthenticated) <==> !req.IsAuthenticated()
    ensures r == Err(OrderMissing) <==> req.IsAuthenticated() && OrdersWithRef(db.orders, txRef) == {}
    ensures r == Err(ManyOrders) <==> req.IsAuthenticated() && |OrdersWithRef(db.orders, txRef)| >= 2
    ensures |OrdersWithRef(db.orders, txRef)| == 1 ==> OrdersWithRef(db.orders, txRef) == {order} && order in db.orders
    ensures r == Err(Forbidden) <==>
      && req.Member? && |OrdersWithRef(db.orders, txRef)| == 1
      && db.orders[order].user != req.id && !req.user.isStaff
    ensures r.Ok? <==>
      && req.Member? && |OrdersWithRef(db.orders, txRef)| == 1
      && (db.orders[order].user == req.id || req.user.isStaff)
    ensures r.Ok? ==> r.value == ItemsOfOrder(db.items, order)
  {
    order := 0;
    if |OrdersWithRef(db.orders, txRef)| == 1 {
      order :| order in OrdersWithRef(db.orders, txRef);
      assert |OrdersWithRef(db.orders, txRef) - {order}| == 0;
    }
    if !IsOwnerHasPermission(req) {
      return Err(NotAuthenticated), order;
    }
    var found := GetOrNone(OrdersWithRef(db.orders, txRef));
    match found {
      case NoMatch => return Err(OrderMissing), order;
      case ManyMatches => return Err(ManyOrders), order;
      case OneMatch(o) =>
        assert o in OrdersWithRef(db.orders, txRef);
        order := o;
    }
    if !IsOwnerHasObjectPermission(req, db.orders[order].user) {
      return Err(Forbidden), order;
    }
    r := Ok(ItemsOfOrder(db.items, order));
  }
}

=== FILE: seller_views.dfy ===
/** The seller views: applying to become a seller, the approved-seller and
    category lookups, product creation by an approved seller, and the product
    lookup of the seller product endpoint. */
module SellerViews {
  import opened Core
  import opened Domain
  import opened ShopModels
  import opened Database
  import opened ShopSerializers
  import opened UserManager

  // ---- Applying ----

  /** The seller rows of `user`: what `update_or_create(user=user)` matches. */
  function SellersOf(sellers: map<Id, Seller>, user: Id): set<Id>
  {
    set k | k in sellers && sellers[k].user == user
  }

  /** At most one seller row per user. */
  predicate OneSellerPerUser(sellers: map<Id, Seller>)
  {
    forall k, k' :: k in sellers && k' in sellers && sellers[k].user == sellers[k'].user ==> k == k'
  }

  /** The columns of `stored` after `update_or_create(defaults=submitted)`:
      the submitted columns are written, and a column the body left out (an
      optional one such as website_url) keeps its stored value. */
  function MergedFields(stored: SellerFields, submitted: SellerFields): SellerFields
  {
    SellerFields(submitted.businessName, stored.others + submitted.others)
  }

  /** The seller table after an application that landed on `key`: on an
      existing row the submitted columns are written and every other column,
      the slug and the approval are kept; a new row has exactly the submitted
      columns, gets `slug` and is not approved. */
  function SellerUpserted(sellers: map<Id, Seller>, key: Id, user: Id, fields: SellerFields, slug: string): (r: map<Id, Seller>)
    requires key in sellers ==> sellers[key].user == user
    ensures key in r && r[key].user == user && r[key].fields.businessName == fields.businessName
    ensures forall c :: c in fields.others ==> c in r[key].fields.others && r[key].fields.others[c] == fields.others[c]
    ensures key in sellers ==>
      && r[key].slug == sellers[key].slug && r[key].isApproved == sellers[key].isApproved
      && r[key].fields.others.Keys == sellers[key].fields.others.Keys + fields.others.Keys
      && (forall c :: c in sellers[key].fields.others && c !in fields.others ==>
            r[key].fields.others[c] == sellers[key].fields.others[c])
    ensures key !in sellers ==> r[key] == Seller(user, fields, slug, false)
    ensures r.Keys == sellers.Keys + {key}
    ensures forall k :: k in sellers && k != key ==> r[k] == sellers[k]
  {
    var row := if key in sellers then sellers[key].(fields := MergedFields(sellers[key].fields, fields))
               else Seller(user, fields, slug, false);
    sellers[key := row]
  }

  /** Applying twice with the same columns leaves the table as applying once:
      the second application lands on the row the first one wrote. */
  lemma ApplicationIdempotent(sellers: map<Id, Seller>, key: Id, user: Id, fields: SellerFields, slug: string)
    requires key in sellers ==> sellers[key].user == user
    ensures var once := SellerUpserted(sellers, key, user, fields, slug);
      SellerUpserted(once, key, user, fields, slug) == once
  {
    var once := SellerUpserted(sellers, key, user, fields, slug);
    var twice := SellerUpserted(once, key, user, fields, slug);
    assert once[key].fields.others + fields.others == once[key].fields.others;
    assert twice[key] == once[key];
  }

  /** Repeated applications update the one row of the user; they never make a
      second one. */
  lemma ApplicationKeepsOneSeller(sellers: map<Id, Seller>, key: Id, user: Id, fields: SellerFields, slug: string)
    requires OneSellerPerUser(sellers)
    requires key in sellers ==> sellers[key].user == user
    requires key !in sellers ==> SellersOf(sellers, user) == {}
    ensures OneSellerPerUser(SellerUpserted(sellers, key, user, fields, slug))
    ensures SellersOf(SellerUpserted(sellers, key, user, fields, slug), user) == {key}
  {
    var r := SellerUpserted(sellers, key, user, fields, slug);
    assert forall k :: k in SellersOf(sellers, user) ==> k == key;
    assert forall k :: k in r && k != key && r[k].user == user ==> k in SellersOf(sellers, user);
    assert key in SellersOf(r, user);
    forall k, k' | k in r && k' in r && r[k].user == r[k'].user
      ensures k == k'
    {
      if k != key && k' != key {
        assert sellers[k] == r[k] && sellers[k'] == r[k'];
      }
    }
  }

  datatype SellerError =
    | ManySellers                      // a seller lookup matched several rows
    | AccessDenied                     // "Access is denied"
    | BadProduct(fields: set<string>)  // 400 from CreateProductSerializer
    | CategoryMissing                  // 404 "Category does not exist!"
    | ManyCategories
    | ManyProducts
    | ProductMissing                   // "Product does not exist!"

  /** SellersView.post: upsert the caller's seller row with the submitted
      columns, then make the caller's account type SELLER, approved or not.
      `slug` is the slug a new row receives. */
  method ApplyAsSeller(db: Db, user: Id, fields: SellerFields, slug: string) returns (r: Result<Id, SellerError>)
    requires db.Valid() && user in db.users
    modifies db`sellers, db`users, db`nextId
    ensures db.Valid()
    ensures r.Ok? <==> |SellersOf(old(db.sellers), user)| <= 1
    ensures r.Err? ==> r == Err(ManySellers)
    ensures r.Err? ==> db.sellers == old(db.sellers) && db.users == old(db.users)
    ensures r.Ok? && r.value in old(db.sellers) ==> SellersOf(old(db.sellers), user) == {r.value}
    ensures r.Ok? && r.value !in old(db.sellers) ==> SellersOf(old(db.sellers), user) == {}
    ensures r.Ok? ==> db.sellers == SellerUpserted(old(db.sellers), r.value, user, fields, slug)
    ensures r.Ok? ==> db.users == old(db.users)[user := old(db.users)[user].(accountType := SELLER)]
  {
    var existing := GetOrNone(SellersOf(db.sellers, user));
    var key: Id;
    match existing {
      case ManyMatches => return Err(ManySellers);
      case OneMatch(k) => key := k;
      case NoMatch => key := db.FreshId();
    }
    db.sellers := SellerUpserted(db.sellers, key, user, fields, slug);
    db.users := db.users[user := db.users[user].(accountType := SELLER)];
    r := Ok(key);
  }

  // ---- Lookups ----

  /** The approved seller rows of `user`. */
  function ApprovedSellersOf(sellers: map<Id, Seller>, user: Id): set<Id>
  {
    set k | k in sellers && sellers[k].user == user && sellers[k].isApproved
  }

  /** SellerProductsView.get_seller: the caller's seller, only when approved;
      "Access is denied" otherwise. */
  method GetApprovedSeller(db: Db, user: Id) returns (r: Result<Id, SellerError>)
    ensures r.Ok? <==> |ApprovedSellersOf(db.sellers, user)| == 1
    ensures r.Ok? ==> ApprovedSellersOf(db.sellers, user) == {r.value}
    ensures r.Ok? ==> r.value in db.sellers && db.sellers[r.value].user == user && db.sellers[r.value].isApproved
    ensures r == Err(AccessDenied) <==> ApprovedSellersOf(db.sellers, user) == {}
    ensures r.Err? ==> r == Err(AccessDenied) || r == Err(ManySellers)
  {
    var found := GetOrNone(ApprovedSellersOf(db.sellers, user));
    match found {
      case NoMatch => r := Err(AccessDenied);
      case ManyMatches => r := Err(ManySellers);
      case OneMatch(k) =>
        assert k in ApprovedSellersOf(db.sellers, user);
        r := Ok(k);
    }
  }

  /** `Category.objects.get_or_none(slug=slug)`; a missing slug (None)
      matches no category, since every category has a slug. */
  function CategoriesMatching(cats: map<Id, Category>, slug: Option<string>): (r: set<Id>)
    ensures slug.None? ==> r == {}
    ensures slug.Some? ==> r == CategoriesWithSlug(cats, slug.value)
  {
    if slug.None? then {} else CategoriesWithSlug(cats, slug.value)
  }

  /** SellerProductsView.get_category. */
  method GetCategory(db: Db, slug: Option<string>) returns (r: Result<Id, SellerError>)
    ensures r.Ok? <==> |CategoriesMatching(db.categories, slug)| == 1
    ensures r.Ok? ==> CategoriesMatching(db.categories, slug) == {r.value}
    ensures r == Err(CategoryMissing) <==> CategoriesMatching(db.categories, slug) == {}
    ensures r.Err? ==> r == Err(CategoryMissing) || r == Err(ManyCategories)
    ensures CategoriesValid(db.categories) ==> r.Ok? || r == Err(CategoryMissing)
  {
    if CategoriesValid(db.categories) && slug.Some? {
      CategorySlugIdentifiesOne(db.categories, slug.value);
    }
    var found := GetOrNone(CategoriesMatching(db.categories, slug));
    match found {
      case NoMatch => r := Err(CategoryMissing);
      case ManyMatches => r := Err(ManyCategories);
      case OneMatch(k) => r := Ok(k);
    }
  }

  /** As written, product creation looks the category up by the slug it pops
      from the validated data, which is always None: no category is ever
      found. */
  lemma CreationFindsNoCategoryAsWritten(cats: map<Id, Category>, v: ValidatedProduct)
    ensures CategoriesMatching(cats, CategorySlugAsWritten(v)) == {}
  {
    CategorySlugAsWrittenIsNone(v);
  }

  /** Reading the slug where validation filed it finds the category with that
      slug, when there is one. */
  lemma CreationFindsCategory(cats: map<Id, Category>, v: ValidatedProduct, c: Id)
    requires CategoriesValid(cats)
    requires c in cats && cats[c].slug == v.categorySlug
    ensures CategoriesMatching(cats, CategorySlugOf(v)) == {c}
  {
    assert CategorySlugOf(v) == Some(v.categorySlug);
    CategorySlugIdentifiesOne(cats, v.categorySlug);
    assert c in CategoriesWithSlug(cats, v.categorySlug);
  }

  // ---- Creating a product ----

  /** The product row `Product.objects.create(**data)` saves: the validated
      columns, the resolved category and seller, a slug derived from the name,
      no old price, and the default stock when none was given. */
  function NewProduct(v: ValidatedProduct, seller: Id, category: Id, slugify: string -> string): Product
  {
    Product(Some(seller), v.name, slugify(v.name), v.desc, None, v.priceCurrent, category,
            OrElse(v.isStock, DefaultStock), false)
  }

  /** A product built from validated data satisfies the column constraints,
      carries the slug of its name, and has stock 5 when none was given. */
  lemma NewProductIsValid(input: ProductInput, seller: Id, category: Id, slugify: string -> string)
    requires ValidateCreateProduct(input).Ok?
    ensures var p := NewProduct(ValidateCreateProduct(input).value, seller, category, slugify);
      && ValidProduct(p)
      && p == SaveProduct(p, slugify)
      && p.priceOld == None
      && (input.isStock.None? ==> p.isStock == DefaultStock)
      && (input.isStock.Some? ==> p.isStock == input.isStock.value)
  {
  }

  /** SellerProductsView.post: the body must validate; the caller must own
      an approved seller; the category must exist. The seller lookup comes
      first in the source, but its failure is returned as a value while an
      invalid body raises, so an invalid body is what the caller meets. The
      new product belongs to that seller and that category. On success
      `seller` and `category` are the rows found. */
  method CreateSellerProduct(db: Db, user: Id, input: ProductInput, slugify: string -> string)
    returns (r: Result<Id, SellerError>, seller: Id, category: Id)
    requires db.Valid()
    modifies db`products, db`nextId
    ensures db.Valid()
    ensures ValidateCreateProduct(input).Err? ==> r == Err(BadProduct(ValidateCreateProduct(input).error))
    ensures r.Err? && r.error.BadProduct? ==> ValidateCreateProduct(input).Err?
    ensures r == Err(AccessDenied) <==>
      ValidateCreateProduct(input).Ok? && ApprovedSellersOf(db.sellers, user) == {}
    ensures r == Err(ManySellers) <==>
      ValidateCreateProduct(input).Ok? && |ApprovedSellersOf(db.sellers, user)| >= 2
    ensures r == Err(CategoryMissing) <==>
      && ValidateCreateProduct(input).Ok? && |ApprovedSellersOf(db.sellers, user)| == 1
      && CategoriesMatching(db.categories, SubmittedCategorySlug(input)) == {}
    ensures r == Err(ManyCategories) <==>
      && ValidateCreateProduct(input).Ok? && |ApprovedSellersOf(db.sellers, user)| == 1
      && |CategoriesMatching(db.categories, SubmittedCategorySlug(input))| >= 2
    ensures r.Ok? <==>
      && ValidateCreateProduct(input).Ok? && |ApprovedSellersOf(db.sellers, user)| == 1
      && |CategoriesMatching(db.categories, SubmittedCategorySlug(input))| == 1
    ensures r.Err? ==> db.products == old(db.products)
    ensures r.Ok? ==> ApprovedSellersOf(db.sellers, user) == {seller}
    ensures r.Ok? ==> CategoriesMatching(db.categories, SubmittedCategorySlug(input)) == {category}
    ensures r.Ok? ==> r.value !in old(db.products)
    ensures r.Ok? ==> db.products == old(db.products)[r.value := NewProduct(ValidateCreateProduct(input).value, seller, category, slugify)]
  {
    seller, category := 0, 0;
    var s := GetApprovedSeller(db, user);
    var data := ValidateCreateProduct(input);
    if data.Err? {
      return Err(BadProduct(data.error)), seller, category;
    }
    if s.Err? {
      return Err(s.error), seller, category;
    }
    seller := s.value;
    CategorySlugOfIsSubmitted(input);
    var c := GetCategory(db, CategorySlugOf(data.value));
    if c.Err? {
      return Err(c.error), seller, category;
    }
    category := c.value;
    var id := db.FreshId();
    db.products := db.products[id := NewProduct(data.value, seller, category, slugify)];
    r := Ok(id);
  }

  /** SellerProductView.get_object: the product is looked up first, then the
      caller's approved seller is required, and only then must the product
      exist. Whose product it is is not checked. */
  method SellerProductGetObject(db: Db, user: Id, slug: string) returns (r: Result<Id, SellerError>)
    ensures r == Err(ManyProducts) <==> |ProductsWithSlug(db.products, slug)| >= 2
    ensures r == Err(AccessDenied) <==>
      |ProductsWithSlug(db.products, slug)| <= 1 && ApprovedSellersOf(db.sellers, user) == {}
    ensures r == Err(ManySellers) <==>
      |ProductsWithSlug(db.products, slug)| <= 1 && |ApprovedSellersOf(db.sellers, user)| >= 2
    ensures r == Err(ProductMissing) <==>
      |ApprovedSellersOf(db.sellers, user)| == 1 && ProductsWithSlug(db.products, slug) == {}
    ensures r.Ok? <==> |ApprovedSellersOf(db.sellers, user)| == 1 && |ProductsWithSlug(db.products, slug)| == 1
    ensures r.Ok? ==> ProductsWithSlug(db.products, slug) == {r.value}
    ensures r.Err? ==> r.error in {ManyProducts, AccessDenied, ManySellers, ProductMissing}
  {
    var product := GetOrNone(ProductsWithSlug(db.products, slug));
    if product == ManyMatches {
      return Err(ManyProducts);
    }
    var seller := GetApprovedSeller(db, user);
    if seller.Err? {
      return Err(seller.error);
    }
    if product == NoMatch {
      return Err(ProductMissing);
    }
    r := Ok(product.id);
  }
}

=== FILE: shop_models.dfy ===
/** The catalogue models: categories with unique names and slugs, and products
    whose slug follows their name, with decimal prices, a stock count and the
    delete rules of their foreign keys. */
module ShopModels {
  import opened Core

  const MaxCategoryName: nat := 100
  const MaxProductName: nat := 100
  const PriceMaxDigits: nat := 10
  const PriceDecimalPlaces: nat := 2
  /** The stock count a product gets when none is given. */
  const DefaultStock: int := 5

  function Pow10(n: nat): (r: nat)
    ensures r >= 1
  {
    if n == 0 then 1 else 10 * Pow10(n - 1)
  }

  /** The largest magnitude a decimal column with PriceMaxDigits digits,
      PriceDecimalPlaces of them after the point, holds, in hundredths:
      99999999.99. */
  const MaxPrice: Cents := Pow10(PriceMaxDigits) - 1

  predicate PriceFits(c: Cents)
  {
    -MaxPrice <= c <= MaxPrice
  }

  datatype Category = Category(name: string, slug: string)

  /** A product row. `seller` is nullable; `priceOld` is nullable;
      `isDeleted` is the soft-delete flag of the base model. Images are not
      modelled. */
  datatype Product = Product(
    seller: Option<Id>,
    name: string,
    slug: string,
    desc: string,
    priceOld: Option<Cents>,
    priceCurrent: Cents,
    category: Id,
    isStock: int,
    isDeleted: bool)

  /** The column constraints of a product row. */
  predicate ValidProduct(p: Product)
  {
    && |p.name| <= MaxProductName
    && PriceFits(p.priceCurrent)
    && (p.priceOld.Some? ==> PriceFits(p.priceOld.value))
  }

  /** The constraints of the category table: bounded names, unique names and
      unique slugs. */
  predicate CategoriesValid(cats: map<Id, Category>)
  {
    && (forall k :: k in cats ==> |cats[k].name| <= MaxCategoryName)
    && (forall k, k' :: k in cats && k' in cats && k != k' ==>
          cats[k].name != cats[k'].name && cats[k].slug != cats[k'].slug)
  }

  function CategoriesWithSlug(cats: map<Id, Category>, slug: string): set<Id>
  {
    set k | k in cats && cats[k].slug == slug
  }

  /** Because category slugs are unique, a lookup by slug finds at most one
      category. */
  lemma CategorySlugIdentifiesOne(cats: map<Id, Category>, slug: string)
    requires CategoriesValid(cats)
    ensures |CategoriesWithSlug(cats, slug)| <= 1
  {
    var s := CategoriesWithSlug(cats, slug);
    if s != {} {
      var k :| k in s;
      assert s == {k};
    }
  }

  // ---- Category slugs ----

  /** The slug autoslug tries at attempt `index`: the slug of the name first,
      then that slug with "-2", "-3", ... appended. */
  function SlugCandidate(base: string, index: nat): string
  {
    if index <= 1 then base else base + "-" + ShowNat(index)
  }

  /** Different attempts try different slugs. */
  lemma CandidatesDistinct(base: string, i: nat, j: nat)
    requires 1 <= i < j
    ensures SlugCandidate(base, i) != SlugCandidate(base, j)
  {
    ShowNatDigits(j);
    if i >= 2 {
      ShowNatDigits(i);
      var p := |base| + 1;
      assert SlugCandidate(base, i)[p..] == ShowNat(i);
      assert SlugCandidate(base, j)[p..] == ShowNat(j);
    }
  }

  /** The slugs tried before attempt `n`. */
  function CandidatesBelow(base: string, n: nat): set<string>
  {
    set i | 1 <= i < n :: SlugCandidate(base, i)
  }

  lemma {:induction false} CandidatesBelowSize(base: string, n: nat)
    requires n >= 1
    ensures |CandidatesBelow(base, n)| == n - 1
  {
    if n > 1 {
      CandidatesBelowSize(base, n - 1);
      var last := SlugCandidate(base, n - 1);
      forall i | 1 <= i < n - 1
        ensures SlugCandidate(base, i) != last
      {
        CandidatesDistinct(base, i, n - 1);
      }
      assert CandidatesBelow(base, n) == CandidatesBelow(base, n - 1) + {last};
    }
  }

  lemma {:induction false} SubsetNoLarger(a: set<string>, b: set<string>)
    requires a <= b
    ensures |a| <= |b|
    decreases a
  {
    if a != {} {
      var x :| x in a;
      SubsetNoLarger(a - {x}, b - {x});
    }
  }

  /** autoslug's search from attempt `index` on: the first attempt whose slug
      no rival holds. Every attempt tries a new slug, so the search ends
      within one attempt more than there are rival slugs. */
  function FreeSlugIndex(base: string, rivals: set<string>, index: nat): (n: nat)
    requires index >= 1 && CandidatesBelow(base, index) <= rivals
    ensures n >= index && SlugCandidate(base, n) !in rivals
    ensures forall j :: index <= j < n ==> SlugCandidate(base, j) in rivals
    decreases |rivals| - index
  {
    if SlugCandidate(base, index) in rivals then
      CandidatesBelowSize(base, index + 1);
      assert CandidatesBelow(base, index + 1) == CandidatesBelow(base, index) + {SlugCandidate(base, index)};
      SubsetNoLarger(CandidatesBelow(base, index + 1), rivals);
      FreeSlugIndex(base, rivals, index + 1)
    else index
  }

  /** The slugs of the categories other than `key`: the rivals autoslug
      checks, which exclude the row being saved. */
  function RivalSlugs(cats: map<Id, Category>, key: Id): set<string>
  {
    set k | k in cats && k != key :: cats[k].slug
  }

  /** The slug category `key` gets when saved with `name`: always_update
      derives it from the name again, and unique=True moves it to the first
      attempt no other category holds. */
  function SlugOnSave(cats: map<Id, Category>, key: Id, name: string, slugify: string -> string): (slug: string)
    ensures slug !in RivalSlugs(cats, key)
    ensures slugify(name) !in RivalSlugs(cats, key) ==> slug == slugify(name)
    ensures exists n: nat :: (n >= 1 && slug == SlugCandidate(slugify(name), n)
      && forall j :: 1 <= j < n ==> SlugCandidate(slugify(name), j) in RivalSlugs(cats, key))
  {
    var n := FreeSlugIndex(slugify(name), RivalSlugs(cats, key), 1);
    SlugCandidate(slugify(name), n)
  }

  datatype SaveError = NameTaken  // the unique name column refuses the row

  /** Category.save for row `key`, new or existing: the unique name column
      refuses a name another category has; otherwise the row is written with
      its slug derived afresh, and no other category changes. */
  function SaveCategory(cats: map<Id, Category>, key: Id, c: Category, slugify: string -> string): (r: Result<map<Id, Category>, SaveError>)
    ensures r.Err? <==> exists k :: k in cats && k != key && cats[k].name == c.name
    ensures r.Ok? ==> r.value.Keys == cats.Keys + {key}
    ensures r.Ok? ==> forall k :: k in cats && k != key ==> r.value[k] == cats[k]
    ensures r.Ok? ==> r.value[key].name == c.name && r.value[key].slug == SlugOnSave(cats, key, c.name, slugify)
  {
    if exists k :: k in cats && k != key && cats[k].name == c.name then Err(NameTaken)
    else Ok(cats[key := Category(c.name, SlugOnSave(cats, key, c.name, slugify))])
  }

  /** The slug a category held before does not matter: saving re-derives it. */
  lemma SaveIgnoresStoredSlug(cats: map<Id, Category>, key: Id, c: Category, slug: string, slugify: string -> string)
    ensures SaveCategory(cats, key, c.(slug := slug), slugify) == SaveCategory(cats, key, c, slugify)
  {
  }

  /** A save the database accepts keeps category names and slugs unique. */
  lemma SaveKeepsCategoriesValid(cats: map<Id, Category>, key: Id, c: Category, slugify: string -> string)
    requires CategoriesValid(cats) && |c.name| <= MaxCategoryName
    requires SaveCategory(cats, key, c, slugify).Ok?
    ensures CategoriesValid(SaveCategory(cats, key, c, slugify).value)
  {
  }

  /** Saving a product regenerates its slug from its name and changes nothing
      else. */
  function SaveProduct(p: Product, slugify: string -> string): (r: Product)
    ensures r.slug == slugify(r.name)
    ensures r.(slug := p.slug) == p
  {
    p.(slug := slugify(p.name))
  }

  /** Every product's slug is the one its last save derived from its name. */
  predicate SlugsCurrent(products: map<Id, Product>, slugify: string -> string)
  {
    forall k :: k in products ==> products[k].slug == slugify(products[k].name)
  }

  function ProductsWithSlug(products: map<Id, Product>, slug: string): set<Id>
  {
    set k | k in products && products[k].slug == slug
  }

  /** Product slugs are not unique: two saved products with the same name share
      a slug, so a lookup by that slug matches both. */
  lemma SameNameSharesSlug(products: map<Id, Product>, slugify: string -> string, a: Id, b: Id)
    requires SlugsCurrent(products, slugify)
    requires a in products && b in products && a != b
    requires products[a].name == products[b].name
    ensures |ProductsWithSlug(products, products[a].slug)| >= 2
  {
    var s := ProductsWithSlug(products, products[a].slug);
    assert {a, b} <= s;
    assert |s - {a}| == |s| - 1;
    assert b in s - {a};
  }

  /** Deleting a seller nulls the seller of its products (on_delete=SET_NULL);
      no product is removed and nothing else changes. */
  function DeleteSeller(products: map<Id, Product>, seller: Id): (r: map<Id, Product>)
    ensures r.Keys == products.Keys
    ensures forall k :: k in r ==> r[k].seller != Some(seller)
    ensures forall k :: k in r ==> r[k] == products[k].(seller := r[k].seller)
    ensures forall k :: k in r && products[k].seller != Some(seller) ==> r[k] == products[k]
  {
    map k | k in products :: if products[k].seller == Some(seller) then products[k].(seller := None) else products[k]
  }

  /** Deleting a category deletes its products (on_delete=CASCADE) and keeps
      every other product as it was. This is the same rule as
      ProfileModels.DeleteUserCascade, kept as its own member because the
      source declares it on its own foreign key. */
  function DeleteCategory(products: map<Id, Product>, category: Id): (r: map<Id, Product>)
    ensures forall k :: k in r <==> k in products && products[k].category != category
    ensures forall k :: k in r ==> r[k] == products[k]
  {
    map k | k in products && products[k].category != category :: products[k]
  }

  /** Every product's category exists, and so does its seller when it has one. */
  predicate ReferencesExist(products: map<Id, Product>, categories: set<Id>, sellers: set<Id>)
  {
    forall k :: k in products ==>
      products[k].category in categories
      && (products[k].seller.Some? ==> products[k].seller.value in sellers)
  }

  /** The two delete rules keep every product reference pointing at a row that
      still exists. */
  lemma DeletesKeepReferences(products: map<Id, Product>, categories: set<Id>, sellers: set<Id>, c: Id, s: Id)
    requires ReferencesExist(products, categories, sellers)
    ensures ReferencesExist(DeleteCategory(products, c), categories - {c}, sellers)
    ensures ReferencesExist(DeleteSeller(products, s), categories, sellers - {s})
  {
  }
}

=== FILE: shop_permissions.dfy ===
/** IsReviewer, the permission class of the review endpoint: requests pass only
    with a safe method; an object passes for staff, or for its own author who
    is not a seller and has no review of the product yet. */
module ShopPermissions {
  import opened Core
  import opened Domain

  datatype HttpMethod = GET | HEAD | OPTIONS | POST | PUT | PATCH | DELETE

  predicate IsSafeMethod(m: HttpMethod)
  {
    m == GET || m == HEAD || m == OPTIONS
  }

  /** IsReviewer.has_permission: the user plays no part. */
  predicate IsReviewerHasPermission(req: Requester, m: HttpMethod)
  {
    IsSafeMethod(m)
  }

  /** The keys of the reviews `user` wrote about `product`. */
  function ReviewsBy(reviews: map<Id, Review>, user: Id, product: Id): set<Id>
  {
    set k | k in reviews && reviews[k].user == user && reviews[k].product == product
  }

  /** IsReviewer.has_object_permission for the review `obj`, with `reviews`
      the review table at the time of the check. Filtering reviews by an
      anonymous user raises; for the object's own author the conjunction
      reaches `request.user.seller`, which raises when there is no seller
      row, before the staff alternative is tried. */
  function IsReviewerHasObjectPermission(req: Requester, obj: Review, reviews: map<Id, Review>): Verdict
  {
    if !req.Member? then Raises
    else
      var isReview := ReviewsBy(reviews, req.id, obj.product) != {};
      if obj.user == req.id && req.seller.None? then Raises
      else if || (&& obj.user == req.id
                  && req.seller.value.accountType != "SELLER"
                  && !isReview)
              || req.user.isStaff then Granted
      else Denied
  }

  /** Every user, staff included, passes the request check exactly with a
      safe method; so POST and DELETE never pass it. */
  lemma OnlySafeMethodsPass(req: Requester, m: HttpMethod)
    ensures IsReviewerHasPermission(req, m) <==> m in {GET, HEAD, OPTIONS}
    ensures !IsReviewerHasPermission(req, POST) && !IsReviewerHasPermission(req, DELETE)
  {
  }

  /** Staff pass the object check, unless it is their own object and they
      have no seller row, where it raises. */
  lemma StaffPassObjectCheck(req: Requester, obj: Review, reviews: map<Id, Review>)
    requires req.IsStaff()
    ensures IsReviewerHasObjectPermission(req, obj, reviews) != Denied
    ensures IsReviewerHasObjectPermission(req, obj, reviews) == Raises <==>
      obj.user == req.id && req.seller.None?
  {
  }

  /** A caller who is not staff and already has a review of the product is
      not granted, whatever the object: refused, or the check raises for
      one's own object without a seller row. */
  lemma ExistingReviewRefused(req: Requester, obj: Review, reviews: map<Id, Review>, k: Id)
    requires req.Member? && !req.user.isStaff
    requires k in reviews && reviews[k].user == req.id && reviews[k].product == obj.product
    ensures IsReviewerHasObjectPermission(req, obj, reviews) ==
      if obj.user == req.id && req.seller.None? then Raises else Denied
  {
    assert k in ReviewsBy(reviews, req.id, obj.product);
  }

  /** A caller who is not staff passes only for its own review, with a seller
      whose account type is not "SELLER", and no review of the product yet;
      the check raises exactly for its own review without a seller row. */
  lemma NonStaffObjectConditions(req: Requester, obj: Review, reviews: map<Id, Review>)
    requires req.Member? && !req.user.isStaff
    ensures IsReviewerHasObjectPermission(req, obj, reviews) == Granted <==>
      && obj.user == req.id
      && req.seller.Some? && req.seller.value.accountType != "SELLER"
      && ReviewsBy(reviews, req.id, obj.product) == {}
    ensures IsReviewerHasObjectPermission(req, obj, reviews) == Raises <==>
      obj.user == req.id && req.seller.None?
  {
  }

  /** Anonymous callers make the object check raise. */
  lemma AnonymousObjectCheckRaises(obj: Review, reviews: map<Id, Review>)
    ensures IsReviewerHasObjectPermission(Anonymous, obj, reviews) == Raises
  {
  }
}

=== FILE: shop_serializers.dfy ===
/** The shop serializers: the input rules of the cart toggle, checkout and
    product creation bodies, and the field projections of cart lines and
    orders. Amounts computed by model methods (`get_total`,
    `get_cart_subtotal`, `get_cart_total`) are inputs of the projections. */
module ShopSerializers {
  import opened Core
  import opened Domain
  import opened ProfileModels
  import opened ShopModels

  // ---- Slugs ----

  predicate IsSlugChar(c: char)
  {
    ('a' <= c <= 'z') || ('A' <= c <= 'Z') || ('0' <= c <= '9') || c == '-' || c == '_'
  }

  /** What a SlugField's pattern accepts: one or more ASCII letters, digits,
      '-' or '_'. */
  predicate IsSlug(s: string)
  {
    s != [] && forall i :: 0 <= i < |s| ==> IsSlugChar(s[i])
  }

  // ---- ToggleCartItemSerializer ----

  /** A cart-toggle body; `None` is a missing value, or for the quantity one
      that is not an integer. */
  datatype ToggleInput = ToggleInput(slug: Option<string>, quantity: Option<int>)

  datatype ToggleData = ToggleData(slug: string, quantity: nat)

  /** A SlugField: the pattern is matched against the value stripped of its
      surrounding whitespace. */
  predicate SlugFieldOk(v: Option<string>)
  {
    v.Some? && IsSlug(Strip(v.value))
  }

  predicate QuantityOk(v: Option<int>)
  {
    v.Some? && v.value >= 0
  }

  /** A body is accepted exactly when it has a valid slug and an integer
      quantity of at least 0, and the slug is then taken stripped; otherwise
      every failing field is reported. */
  function ValidateToggle(input: ToggleInput): (r: Result<ToggleData, set<string>>)
    ensures r.Ok? <==> SlugFieldOk(input.slug) && QuantityOk(input.quantity)
    ensures r.Ok? ==> r.value.slug == Strip(input.slug.value) && r.value.quantity == input.quantity.value
    ensures r.Err? ==> r.error != {} && r.error <= {"slug", "quantity"}
    ensures r.Err? ==> ("slug" in r.error <==> !SlugFieldOk(input.slug))
    ensures r.Err? ==> ("quantity" in r.error <==> !QuantityOk(input.quantity))
  {
    var errors := (if SlugFieldOk(input.slug) then {} else {"slug"})
                + (if QuantityOk(input.quantity) then {} else {"quantity"});
    if errors == {} then Ok(ToggleData(Strip(input.slug.value), input.quantity.value)) else Err(errors)
  }

  // ---- CheckoutSerializer ----

  /** CheckoutSerializer as written: its one class attribute is the field
      class itself, not a field, so the serializer declares no field. Every
      body validates, and `validated_data.get("shipping_id")` is None. */
  function CheckoutShippingIdAsWritten(body: Option<Id>): (r: Result<Option<Id>, set<string>>)
    ensures r == Ok(None)
  {
    Ok(None)
  }

  /** CheckoutSerializer with `shipping_id` declared as a (required) field:
      the body's id reaches the view, and a body without one is refused. */
  function CheckoutShippingId(body: Option<Id>): (r: Result<Option<Id>, set<string>>)
    ensures r.Ok? <==> body.Some?
    ensures r.Ok? ==> r.value == body
    ensures r.Err? ==> r.error == {"shipping_id"}
  {
    if body.Some? then Ok(body) else Err({"shipping_id"})
  }

  // ---- CreateProductSerializer ----

  /** A product-creation body; `None` is a missing or malformed value. Prices
      are in hundredths. `priceOld` stands for a `price_old` the client may
      send although the serializer does not declare it. Images are not
      modelled. */
  datatype ProductInput = ProductInput(
    name: Option<string>,
    desc: Option<string>,
    priceCurrent: Option<Cents>,
    categorySlug: Option<string>,
    isStock: Option<int>,
    priceOld: Option<Cents>)

  /** The validated data. `source="category.slug"` files the slug under a
      nested "category" entry rather than under its own name. */
  datatype ValidatedProduct = ValidatedProduct(
    name: string,
    desc: string,
    priceCurrent: Cents,
    categorySlug: string,
    isStock: Option<int>)

  /** One value of a validated-data dictionary. */
  datatype DataValue = Text(text: string) | Number(number: int) | Nested(entries: map<string, string>)

  /** The validated data as the dictionary the view receives. */
  function AsDict(v: ValidatedProduct): (d: map<string, DataValue>)
    ensures d.Keys == {"name", "desc", "price_current", "category"} + (if v.isStock.Some? then {"is_stock"} else {})
    ensures d["category"] == Nested(map["slug" := v.categorySlug])
  {
    var base := map["name" := Text(v.name), "desc" := Text(v.desc), "price_current" := Number(v.priceCurrent),
                     "category" := Nested(map["slug" := v.categorySlug])];
    if v.isStock.Some? then base["is_stock" := Number(v.isStock.value)] else base
  }

  predicate ProductFieldsOk(input: ProductInput)
  {
    && TextOk(input.name, MaxProductName)
    && TextPresent(input.desc)
    && input.priceCurrent.Some? && PriceFits(input.priceCurrent.value)
    && SlugFieldOk(input.categorySlug)
  }

  /** CreateProductSerializer validation: the declared fields are checked and
      copied, the text fields stripped of surrounding whitespace; `is_stock`
      may be left out; `price_old` is not a declared field and is dropped. */
  function ValidateCreateProduct(input: ProductInput): (r: Result<ValidatedProduct, set<string>>)
    ensures r.Ok? <==> ProductFieldsOk(input)
    ensures r.Ok? ==> r.value == ValidatedProduct(Strip(input.name.value), Strip(input.desc.value), input.priceCurrent.value,
                                                  Strip(input.categorySlug.value), input.isStock)
    ensures r.Err? ==> r.error != {} && r.error <= {"name", "desc", "price_current", "category_slug"}
    ensures r.Err? ==> ("name" in r.error <==> !TextOk(input.name, MaxProductName))
    ensures r.Err? ==> ("desc" in r.error <==> !TextPresent(input.desc))
    ensures r.Err? ==> ("price_current" in r.error <==> !(input.priceCurrent.Some? && PriceFits(input.priceCurrent.value)))
    ensures r.Err? ==> ("category_slug" in r.error <==> !SlugFieldOk(input.categorySlug))
  {
    var errors :=
      (if TextOk(input.name, MaxProductName) then {} else {"name"})
      + (if TextPresent(input.desc) then {} else {"desc"})
      + (if input.priceCurrent.Some? && PriceFits(input.priceCurrent.value) then {} else {"price_current"})
      + (if SlugFieldOk(input.categorySlug) then {} else {"category_slug"});
    if errors == {} then
      Ok(ValidatedProduct(Strip(input.name.value), Strip(input.desc.value), input.priceCurrent.value,
                          Strip(input.categorySlug.value), input.isStock))
    else Err(errors)
  }

  /** Whatever `price_old` the client sends, validation ends the same. */
  lemma PriceOldIgnored(input: ProductInput, priceOld: Option<Cents>)
    ensures ValidateCreateProduct(input.(priceOld := priceOld)) == ValidateCreateProduct(input)
  {
  }

  /** `dict.pop(key, None)`: the value under `key`, if any. */
  function Pop(d: map<string, DataValue>, key: string): Option<DataValue>
  {
    if key in d then Some(d[key]) else None
  }

  /** The category slug the product view reads, as written: it pops
      "category_slug", a key the validated data never has. */
  function CategorySlugAsWritten(v: ValidatedProduct): Option<string>
  {
    var popped := Pop(AsDict(v), "category_slug");
    if popped.Some? && popped.value.Text? then Some(popped.value.text) else None
  }

  lemma CategorySlugAsWrittenIsNone(v: ValidatedProduct)
    ensures CategorySlugAsWritten(v) == None
  {
    assert "category_slug" !in AsDict(v);
  }

  /** The category slug read from where validation filed it: the "slug"
      entry of the nested "category" value. */
  function CategorySlugOf(v: ValidatedProduct): Option<string>
  {
    var category := AsDict(v)["category"];
    if category.Nested? && "slug" in category.entries then Some(category.entries["slug"]) else None
  }

  /** The category slug a body carries, as its SlugField cleans it. */
  function SubmittedCategorySlug(input: ProductInput): Option<string>
  {
    if input.categorySlug.Some? then Some(Strip(input.categorySlug.value)) else None
  }

  /** That entry is the slug the body carried, stripped. */
  lemma CategorySlugOfIsSubmitted(input: ProductInput)
    requires ValidateCreateProduct(input).Ok?
    ensures CategorySlugOf(ValidateCreateProduct(input).value) == SubmittedCategorySlug(input)
  {
  }

  // ---- Output projections ----

  /** SellerShopSerializer. */
  datatype SellerShopView = SellerShopView(name: string, slug: string, avatar: string)

  /** OrderItemProductSerializer: `price` is the current price. */
  datatype ItemProductView = ItemProductView(seller: Option<SellerShopView>, name: string, slug: string, price: Cents)

  /** OrderItemSerializer. */
  datatype ItemView = ItemView(product: ItemProductView, quantity: nat, total: Cents)

  /** ShippingAddressSerializer applied to an order: the order's key and its
      own copy of the seven address columns. */
  datatype ShippingView = ShippingView(id: Id, details: ShippingDetails)

  /** OrderSerializer. */
  datatype OrderView = OrderView(
    txRef: string,
    firstName: string,
    lastName: string,
    email: string,
    shippingDetails: ShippingView,
    subtotal: Cents,
    total: Cents)

  /** The shop name is the business name, the avatar is the owner's. */
  function SellerShop(s: Seller, owner: User): (v: SellerShopView)
    ensures v.name == s.fields.businessName && v.slug == s.slug && v.avatar == owner.avatar
  {
    SellerShopView(s.fields.businessName, s.slug, owner.avatar)
  }

  /** A cart line's product: its seller's shop (when it has a seller), name,
      slug, and its current price; the old price is never shown. */
  function ItemProduct(p: Product, shop: Option<SellerShopView>): (v: ItemProductView)
    ensures v.price == p.priceCurrent && v.name == p.name && v.slug == p.slug && v.seller == shop
  {
    ItemProductView(shop, p.name, p.slug, p.priceCurrent)
  }

  /** A cart line: its product, its quantity, and the line total `get_total`
      reports. */
  function ItemProjection(line: OrderItem, product: ItemProductView, total: Cents): (v: ItemView)
    ensures v.quantity == line.quantity && v.total == total && v.product == product
  {
    ItemView(product, line.quantity, total)
  }

  /** Two sellers show the same shop exactly when their business names,
      slugs and owners' avatars agree: approval, the other seller columns and
      every other column of the owner stay hidden. */
  lemma SellerShopShows(s: Seller, owner: User, s': Seller, owner': User)
    ensures SellerShop(s, owner) == SellerShop(s', owner') <==>
      && s.fields.businessName == s'.fields.businessName
      && s.slug == s'.slug
      && owner.avatar == owner'.avatar
  {
  }

  /** Two products of the same shop show the same line product exactly when
      their names, slugs and current prices agree; in particular the old
      price, the description, the category and the stock never show. */
  lemma ItemProductShows(p: Product, q: Product, shop: Option<SellerShopView>)
    ensures ItemProduct(p, shop) == ItemProduct(q, shop) <==>
      p.name == q.name && p.slug == q.slug && p.priceCurrent == q.priceCurrent
    ensures ItemProduct(p.(priceOld := q.priceOld), shop) == ItemProduct(p, shop)
  {
  }

  /** Of the line itself only the quantity shows: its user, product key and
      order do not. */
  lemma ItemProjectionShows(line: OrderItem, line': OrderItem, product: ItemProductView, total: Cents)
    ensures ItemProjection(line, product, total) == ItemProjection(line', product, total) <==>
      line.quantity == line'.quantity
  {
  }

  /** An order summary. `id` is the order's key and `owner` its user. */
  function OrderSummary(id: Id, o: Order, owner: User, subtotal: Cents, total: Cents): (v: OrderView)
    ensures v.txRef == o.txRef
    ensures v.firstName == owner.firstName && v.lastName == owner.lastName && v.email == owner.email
    ensures v.shippingDetails == ShippingView(id, o.shipping)
    ensures v.subtotal == subtotal && v.total == total
  {
    OrderView(o.txRef, owner.firstName, owner.lastName, owner.email, ShippingView(id, o.shipping), subtotal, total)
  }

  /** The contact fields come from the order's user, never from the shipping
      snapshot: two orders that differ only in their snapshot get the same
      names and email, those of the user. */
  lemma SummaryContactFromUser(id: Id, o: Order, snapshot: ShippingDetails, owner: User, subtotal: Cents, total: Cents)
    ensures var v := OrderSummary(id, o, owner, subtotal, total);
            v.firstName == owner.firstName && v.lastName == owner.lastName && v.email == owner.email
    ensures var a := OrderSummary(id, o, owner, subtotal, total);
            var b := OrderSummary(id, o.(shipping := snapshot), owner, subtotal, total);
            a.firstName == b.firstName && a.lastName == b.lastName && a.email == b.email
  {
  }
}

=== FILE: shop_views.dfy ===
/** The shop views that change tables: the cart toggle, checkout, and the
    review upsert and delete, with the cart and review listings. */
module ShopViews {
  import opened Core
  import opened Domain
  import opened ProfileModels
  import opened ShopModels
  import opened Database
  import opened ShopPermissions
  import opened ShopSerializers
  import opened UniqueCode

  // ---- The cart ----

  /** Whether `line` is the cart line of `user` for `product`. */
  predicate IsCartLine(line: OrderItem, user: Id, product: Id)
  {
    line.user == user && line.product == product && line.order == None
  }

  /** The keys `update_or_create(user=user, order=None, product=product)`
      matches. */
  function CartLines(items: map<Id, OrderItem>, user: Id, product: Id): set<Id>
  {
    set k | k in items && IsCartLine(items[k], user, product)
  }

  /** CartView.get_queryset: the user's lines not attached to an order. */
  function CartOf(items: map<Id, OrderItem>, user: Id): (cart: map<Id, OrderItem>)
    ensures forall k :: k in cart <==> k in items && items[k].user == user && items[k].order == None
    ensures forall k :: k in cart ==> cart[k] == items[k]
  {
    map k | k in items && items[k].user == user && items[k].order == None :: items[k]
  }

  /** At most one cart line per user and product. */
  predicate CartKeysUnique(items: map<Id, OrderItem>)
  {
    forall k, k' ::
      (&& k in items && k' in items && items[k].order == None && items[k'].order == None
       && items[k].user == items[k'].user && items[k].product == items[k'].product)
      ==> k == k'
  }

  /** With one cart line per user and product, update_or_create matches at
      most one line. */
  lemma UniqueCartOneLine(items: map<Id, OrderItem>, user: Id, product: Id)
    requires CartKeysUnique(items)
    ensures |CartLines(items, user, product)| <= 1
  {
    var s := CartLines(items, user, product);
    if s != {} {
      var k :| k in s;
      assert s == {k};
    }
  }

  /** The line table after a toggle whose update_or_create landed on `key`
      (the existing cart line, or a new key): the line's quantity is
      overwritten with `q`, and a quantity of 0 then deletes the line. */
  function Toggled(items: map<Id, OrderItem>, key: Id, user: Id, product: Id, q: nat): (r: map<Id, OrderItem>)
    requires key in items ==> IsCartLine(items[key], user, product)
    ensures q > 0 ==> key in r && r[key] == OrderItem(user, product, q, None)
    ensures q == 0 ==> key !in r
    ensures forall k :: k != key ==> (k in r <==> k in items)
    ensures forall k :: k in r && k != key ==> r[k] == items[k]
  {
    var line := if key in items then items[key].(quantity := q) else OrderItem(user, product, q, None);
    var written := items[key := line];
    if q == 0 then written - {key} else written
  }

  /** A toggle keeps one cart line per user and product: afterwards the pair
      has exactly the toggled line (none for quantity 0), and the cart lines
      of every other pair are as before. */
  lemma ToggleKeepsOneLine(items: map<Id, OrderItem>, key: Id, user: Id, product: Id, q: nat)
    requires CartKeysUnique(items)
    requires key in items ==> IsCartLine(items[key], user, product)
    requires key !in items ==> CartLines(items, user, product) == {}
    ensures CartKeysUnique(Toggled(items, key, user, product, q))
    ensures CartLines(Toggled(items, key, user, product, q), user, product) == if q > 0 then {key} else {}
    ensures forall u, p :: u != user || p != product ==>
      CartLines(Toggled(items, key, user, product, q), u, p) == CartLines(items, u, p)
  {
    var r := Toggled(items, key, user, product, q);
    assert forall k :: k in CartLines(items, user, product) ==> k == key;
    assert forall k :: k in r && k != key ==> r[k] == items[k];
    assert forall k :: k in r && k != key && IsCartLine(r[k], user, product) ==> k in CartLines(items, user, product);
    assert forall k :: k in CartLines(r, user, product) && k != key ==> k in CartLines(items, user, product);
    if q > 0 {
      assert key in CartLines(r, user, product);
    }
    forall k, k' |
      (&& k in r && k' in r && r[k].order == None && r[k'].order == None
       && r[k].user == r[k'].user && r[k].product == r[k'].product)
      ensures k == k'
    {
      if k != key && k' != key {
        assert items[k] == r[k] && items[k'] == r[k'];
      }
    }
  }

  datatype CartError =
    | BadInput(fields: set<string>)  // 400 from the serializer
    | NoProduct                      // "No Product with that slug"
    | ManyProducts                   // the slug lookup matched several products
    | ManyLines                      // update_or_create matched several lines

  /** The reply of a toggle: status, message and the serialized line. */
  datatype CartReply = CartReply(status: int, message: string, item: Option<OrderItem>)

  /** What CartView.post meets when it serializes a kept line: the view sets
      no `serializer_class`, so `self.serializer_class(...)` calls None. */
  datatype Crash = NoneIsNotCallable

  /** The reply of CartView.post as written. */
  function CartReplyAsWritten(created: bool, line: OrderItem): Result<CartReply, Crash>
  {
    if line.quantity == 0 then Ok(CartReply(if created then 201 else 200, "Item Removed From Cart", None))
    else Err(NoneIsNotCallable)
  }

  /** As written, every add and every update ends in the crash, after the
      line has been written. */
  lemma KeptLineCrashesAsWritten(created: bool, line: OrderItem)
    requires line.quantity > 0
    ensures CartReplyAsWritten(created, line) == Err(NoneIsNotCallable)
  {
  }

  /** The reply once the kept line is serialized: 201 exactly when the line
      was created, the message naming what happened, and the line itself
      unless it was removed. */
  function CartReplyOf(created: bool, line: OrderItem): (r: CartReply)
    ensures r.status == 201 <==> created
    ensures r.status == 200 <==> !created
    ensures r.message == "Item Removed From Cart" <==> line.quantity == 0
    ensures r.message == "Item Added To Cart" <==> created && line.quantity > 0
    ensures r.message == "Item Updated In Cart" <==> !created && line.quantity > 0
    ensures r.item == if line.quantity == 0 then None else Some(line)
  {
    var what := if line.quantity == 0 then "Removed From" else if created then "Added To" else "Updated In";
    CartReply(if created then 201 else 200, "Item " + what + " Cart", if line.quantity == 0 then None else Some(line))
  }

  /** `OrderItem.objects.update_or_create(user=user, order=None,
      product=product, defaults={'quantity': q})`, then the delete of a line
      left with quantity 0. On success `key` is the line written and the
      result tells whether it was created. */
  method UpsertCartLine(db: Db, user: Id, product: Id, q: nat) returns (r: Result<bool, CartError>, key: Id)
    requires db.Valid()
    modifies db`items, db`nextId
    ensures db.Valid()
    ensures r.Ok? <==> |CartLines(old(db.items), user, product)| <= 1
    ensures r.Err? ==> r == Err(ManyLines) && db.items == old(db.items)
    ensures CartKeysUnique(old(db.items)) ==> r.Ok?
    ensures r.Ok? ==> (r.value <==> key !in old(db.items))
    ensures r.Ok? && key in old(db.items) ==> CartLines(old(db.items), user, product) == {key}
    ensures r.Ok? && key !in old(db.items) ==> CartLines(old(db.items), user, product) == {}
    ensures r.Ok? ==> db.items == Toggled(old(db.items), key, user, product, q)
  {
    key := 0;
    if CartKeysUnique(db.items) {
      UniqueCartOneLine(db.items, user, product);
    }
    var lines := GetOrNone(CartLines(db.items, user, product));
    var created: bool;
    match lines {
      case ManyMatches => return Err(ManyLines), key;
      case OneMatch(k) =>
        key, created := k, false;
      case NoMatch =>
        key := db.FreshId();
        created := true;
    }
    db.items := Toggled(db.items, key, user, product, q);
    r := Ok(created);
  }

  /** CartView.post: validate the body, find the product by the URL slug,
      upsert the user's cart line with the new quantity, delete it when the
      quantity is 0, and reply. On success `product` is the product found and
      `key` the line the upsert wrote. */
  method ToggleCart(db: Db, user: Id, slug: string, input: ToggleInput)
    returns (r: Result<CartReply, CartError>, product: Id, key: Id)
    requires db.Valid()
    modifies db`items, db`nextId
    ensures db.Valid()
    ensures ValidateToggle(input).Err? ==> r == Err(BadInput(ValidateToggle(input).error))
    ensures r.Err? && r.error.BadInput? ==> ValidateToggle(input).Err?
    ensures r == Err(NoProduct) <==>
      ValidateToggle(input).Ok? && ProductsWithSlug(db.products, slug) == {}
    ensures r == Err(ManyProducts) <==>
      ValidateToggle(input).Ok? && |ProductsWithSlug(db.products, slug)| >= 2
    ensures ValidateToggle(input).Ok? && |ProductsWithSlug(db.products, slug)| == 1 ==>
      ProductsWithSlug(db.products, slug) == {product}
    ensures r == Err(ManyLines) <==>
      && ValidateToggle(input).Ok? && |ProductsWithSlug(db.products, slug)| == 1
      && |CartLines(old(db.items), user, product)| >= 2
    ensures r.Ok? <==>
      && ValidateToggle(input).Ok? && |ProductsWithSlug(db.products, slug)| == 1
      && |CartLines(old(db.items), user, product)| <= 1
    ensures CartKeysUnique(old(db.items)) ==> r != Err(ManyLines)
    ensures r.Err? ==> db.items == old(db.items)
    ensures r.Ok? && key in old(db.items) ==> CartLines(old(db.items), user, product) == {key}
    ensures r.Ok? && key !in old(db.items) ==> CartLines(old(db.items), user, product) == {}
    ensures r.Ok? ==> db.items == Toggled(old(db.items), key, user, product, ValidateToggle(input).value.quantity)
    ensures r.Ok? ==>
      r.value == CartReplyOf(key !in old(db.items), OrderItem(user, product, ValidateToggle(input).value.quantity, None))
  {
    product, key := 0, 0;
    var data := ValidateToggle(input);
    if data.Err? {
      return Err(BadInput(data.error)), product, key;
    }
    var found := GetOrNone(ProductsWithSlug(db.products, slug));
    match found {
      case NoMatch => return Err(NoProduct), product, key;
      case ManyMatches => return Err(ManyProducts), product, key;
      case OneMatch(p) => product := p;
    }
    var q := data.value.quantity;
    var written;
    written, key := UpsertCartLine(db, user, product, q);
    if written.Err? {
      return Err(written.error), product, key;
    }
    r := Ok(CartReplyOf(written.value, OrderItem(user, product, q, None)));
  }

  // ---- Checkout ----

  datatype CheckoutError =
    | EmptyCart                      // 404 "No Items in Cart"
    | InvalidBody(fields: set<string>)
    | AddressNotFound                // 404 "No shipping address with that ID"
    | CodesExhausted                 // the draws ran out before a fresh tx_ref

  /** `ShippingAddress.objects.get_or_none(id=id)`: a lookup by key alone,
      whoever owns the address; an absent id matches nothing. */
  function AddressWithId(addresses: map<Id, ShippingAddress>, id: Option<Id>): (r: Option<ShippingAddress>)
    ensures r.Some? <==> id.Some? && id.value in addresses
    ensures r.Some? ==> r.value == addresses[id.value]
  {
    if id.Some? && id.value in addresses then Some(addresses[id.value]) else None
  }

  /** As written, the serializer hands the view no id, so the address lookup
      finds nothing whatever the body and the table hold. */
  lemma CheckoutFindsNoAddressAsWritten(body: Option<Id>, addresses: map<Id, ShippingAddress>)
    ensures CheckoutShippingIdAsWritten(body).Ok?
    ensures AddressWithId(addresses, CheckoutShippingIdAsWritten(body).value) == None
  {
  }

  /** With the field declared, a body naming a stored address finds it. */
  lemma CheckoutFindsAddress(id: Id, addresses: map<Id, ShippingAddress>)
    requires id in addresses
    ensures CheckoutShippingId(Some(id)).Ok?
    ensures AddressWithId(addresses, CheckoutShippingId(Some(id)).value) == Some(addresses[id])
  {
  }

  /** The tx_ref values stored in the order table. */
  function TxRefs(orders: map<Id, Order>): set<string>
  {
    set k | k in orders :: orders[k].txRef
  }

  predicate TxRefsUnique(orders: map<Id, Order>)
  {
    forall k, k' :: k in orders && k' in orders && orders[k].txRef == orders[k'].txRef ==> k == k'
  }

  /** Adding an order whose reference is not stored yet keeps references
      unique. */
  lemma FreshRefKeepsUnique(orders: map<Id, Order>, key: Id, o: Order)
    requires TxRefsUnique(orders)
    requires key !in orders && o.txRef !in TxRefs(orders)
    ensures TxRefsUnique(orders[key := o])
  {
    assert forall k :: k in orders ==> orders[k].txRef in TxRefs(orders);
  }

  /** The line table after `orderitems.update(order=order)`: every cart line of
      `user` now belongs to `order`; every other line is unchanged. */
  function Attached(items: map<Id, OrderItem>, user: Id, order: Id): (r: map<Id, OrderItem>)
    ensures r.Keys == items.Keys
    ensures forall k :: k in r && items[k].user == user && items[k].order == None ==>
      r[k] == items[k].(order := Some(order))
    ensures forall k :: k in r && (items[k].user != user || items[k].order != None) ==> r[k] == items[k]
  {
    map k | k in items :: if items[k].user == user && items[k].order == None then items[k].(order := Some(order)) else items[k]
  }

  /** The lines of an order. */
  function ItemsOfOrder(items: map<Id, OrderItem>, order: Id): set<Id>
  {
    set k | k in items && items[k].order == Some(order)
  }

  /** Checkout moves the cart into the new order: the order's lines are
      exactly the lines that were in the cart, the cart is empty afterwards,
      and every other user's cart is untouched. */
  lemma CheckoutMovesCart(items: map<Id, OrderItem>, user: Id, order: Id)
    requires forall k :: k in items ==> items[k].order != Some(order)
    ensures CartOf(Attached(items, user, order), user) == map[]
    ensures ItemsOfOrder(Attached(items, user, order), order) == CartOf(items, user).Keys
    ensures forall u :: u != user ==> CartOf(Attached(items, user, order), u) == CartOf(items, u)
  {
    var r := Attached(items, user, order);
    forall u | u != user
      ensures CartOf(r, u) == CartOf(items, u)
    {
      assert CartOf(r, u).Keys == CartOf(items, u).Keys;
    }
    assert CartOf(r, user).Keys == {};
  }

  /** `Order.objects.create(...)` with the reference `txRef`, then
      `orderitems.update(order=order)` on the user's cart; the result is the
      new order's key. */
  method PlaceOrder(db: Db, user: Id, txRef: string, details: ShippingDetails, now: nat) returns (id: Id)
    requires db.Valid()
    modifies db`orders, db`items, db`nextId
    ensures db.Valid()
    ensures id !in old(db.orders)
    ensures db.orders == old(db.orders)[id := Order(user, txRef, details, now)]
    ensures db.items == Attached(old(db.items), user, id)
    ensures forall k :: k in old(db.items) ==> old(db.items)[k].order != Some(id)
    ensures TxRefsUnique(old(db.orders)) && txRef !in TxRefs(old(db.orders)) ==> TxRefsUnique(db.orders)
  {
    id := db.FreshId();
    var order := Order(user, txRef, details, now);
    if TxRefsUnique(db.orders) && txRef !in TxRefs(db.orders) {
      FreshRefKeepsUnique(db.orders, id, order);
    }
    db.orders := db.orders[id := order];
    db.items := Attached(db.items, user, id);
  }

  /** CheckoutView.post: a user with an empty cart is refused first; then the
      body is validated and the address looked up by id; then an order is
      created with a fresh tx_ref and a copy of the address's seven columns,
      and the whole cart is attached to it. `choices` are the random draws and
      `now` the clock. */
  method Checkout(db: Db, user: Id, body: Option<Id>, choices: seq<Choice>, now: nat) returns (r: Result<Id, CheckoutError>)
    requires db.Valid()
    modifies db`orders, db`items, db`nextId
    ensures db.Valid()
    ensures r == Err(EmptyCart) <==> CartOf(old(db.items), user) == map[]
    ensures r.Err? && r.error.InvalidBody? <==>
      CartOf(old(db.items), user) != map[] && CheckoutShippingId(body).Err?
    ensures r == Err(AddressNotFound) <==>
      && CartOf(old(db.items), user) != map[] && CheckoutShippingId(body).Ok?
      && AddressWithId(db.addresses, body).None?
    ensures r == Err(CodesExhausted) <==>
      && CartOf(old(db.items), user) != map[] && CheckoutShippingId(body).Ok?
      && AddressWithId(db.addresses, body).Some?
      && GenerateUniqueCode(choices, TxRefs(old(db.orders))).None?
    ensures r.Ok? <==>
      && CartOf(old(db.items), user) != map[] && CheckoutShippingId(body).Ok?
      && AddressWithId(db.addresses, body).Some?
      && GenerateUniqueCode(choices, TxRefs(old(db.orders))).Some?
    ensures r.Err? ==> db.orders == old(db.orders) && db.items == old(db.items)
    ensures r.Ok? ==> CheckoutShippingId(body).Ok? && AddressWithId(db.addresses, body).Some?
    ensures r.Ok? ==> r.value !in old(db.orders)
    ensures r.Ok? ==> GenerateUniqueCode(choices, TxRefs(old(db.orders))).Some?
    ensures r.Ok? ==> db.orders == old(db.orders)[r.value := Order(user,
              GenerateUniqueCode(choices, TxRefs(old(db.orders))).value,
              AddressWithId(db.addresses, body).value.details, now)]
    ensures r.Ok? ==> db.items == Attached(old(db.items), user, r.value)
    ensures r.Ok? ==> forall k :: k in old(db.items) ==> old(db.items)[k].order != Some(r.value)
    ensures TxRefsUnique(old(db.orders)) ==> TxRefsUnique(db.orders)
  {
    if CartOf(db.items, user) == map[] {
      return Err(EmptyCart);
    }
    var data := CheckoutShippingId(body);
    if data.Err? {
      return Err(InvalidBody(data.error));
    }
    var shipping := AddressWithId(db.addresses, data.value);
    if shipping.None? {
      return Err(AddressNotFound);
    }
    var code := GenerateUniqueCode(choices, TxRefs(db.orders));
    if code.None? {
      return Err(CodesExhausted);
    }
    var id := PlaceOrder(db, user, code.value, shipping.value.details, now);
    r := Ok(id);
  }

  // ---- Reviews ----

  /** At most one review per user and product. */
  predicate ReviewKeysUnique(reviews: map<Id, Review>)
  {
    forall k, k' ::
      (&& k in reviews && k' in reviews && reviews[k].user == reviews[k'].user
       && reviews[k].product == reviews[k'].product)
      ==> k == k'
  }

  /** The review table after `update_or_create(user, product, defaults=...)`
      landed on `key`: the review of the pair holds the new content. */
  function Upserted(reviews: map<Id, Review>, key: Id, user: Id, product: Id, content: ReviewContent): (r: map<Id, Review>)
    requires key in reviews ==> reviews[key].user == user && reviews[key].product == product
    ensures key in r && r[key] == Review(user, product, content)
    ensures r.Keys == reviews.Keys + {key}
    ensures forall k :: k in reviews && k != key ==> r[k] == reviews[k]
  {
    var review := if key in reviews then reviews[key].(content := content) else Review(user, product, content);
    reviews[key := review]
  }

  /** An upsert never makes a second review for the pair. */
  lemma UpsertKeepsOneReview(reviews: map<Id, Review>, key: Id, user: Id, product: Id, content: ReviewContent)
    requires ReviewKeysUnique(reviews)
    requires key in reviews ==> reviews[key].user == user && reviews[key].product == product
    requires key !in reviews ==> ReviewsBy(reviews, user, product) == {}
    ensures ReviewKeysUnique(Upserted(reviews, key, user, product, content))
    ensures ReviewsBy(Upserted(reviews, key, user, product, content), user, product) == {key}
  {
    var r := Upserted(reviews, key, user, product, content);
    assert forall k :: k in ReviewsBy(r, user, product) && k != key ==> k in ReviewsBy(reviews, user, product);
    assert key in ReviewsBy(r, user, product);
  }

  /** With one review per user and product, update_or_create matches at most
      one review. */
  lemma UniqueReviewsOneMatch(reviews: map<Id, Review>, user: Id, product: Id)
    requires ReviewKeysUnique(reviews)
    ensures |ReviewsBy(reviews, user, product)| <= 1
  {
    var s := ReviewsBy(reviews, user, product);
    if s != {} {
      var k :| k in s;
      assert s == {k};
    }
  }

  /** The object check on one's own review of a product one has reviewed:
      it raises without a seller row, and otherwise grants exactly staff. */
  lemma OwnReviewVerdict(req: Requester, reviews: map<Id, Review>, k: Id)
    requires req.Member? && k in reviews && reviews[k].user == req.id
    ensures IsReviewerHasObjectPermission(req, reviews[k], reviews) ==
      if req.seller.None? then Raises else if req.user.isStaff then Granted else Denied
  {
    assert k in ReviewsBy(reviews, req.id, reviews[k].product);
  }

  /** Because the object check runs after the upsert, the caller's review of
      the product exists at check time: a caller who is not staff is refused,
      and a caller without a seller row makes the check raise. */
  lemma CheckAfterUpsertVerdict(req: Requester, reviews: map<Id, Review>, key: Id, product: Id, content: ReviewContent)
    requires req.Member?
    requires key in reviews ==> reviews[key].user == req.id && reviews[key].product == product
    ensures IsReviewerHasObjectPermission(req, Upserted(reviews, key, req.id, product, content)[key],
                                          Upserted(reviews, key, req.id, product, content))
      == if req.seller.None? then Raises else if req.user.isStaff then Granted else Denied
  {
    OwnReviewVerdict(req, Upserted(reviews, key, req.id, product, content), key);
  }

  datatype ReviewError =
    | NoReviewProduct    // NotFound "No Product with that slug"
    | ManyReviewProducts // the slug lookup matched several products
    | ManyReviews        // update_or_create matched several reviews
    | AnonymousReviewer  // filtering or writing reviews by an anonymous user raises
    | ReviewDenied       // the object permission refused
    | CheckRaised        // the object permission raised: the caller has no seller row
    | NoReviews          // 404 "No Reviews"
    | ReviewNotFound     // the id is not among the caller's reviews of the product

  datatype ReviewReply = ReviewReply(status: int, message: string)

  function ReviewReplyOf(created: bool): (r: ReviewReply)
    ensures r.status == 201 <==> created
    ensures created ==> r.message == "Created Review"
    ensures !created ==> r == ReviewReply(200, "Updated Review")
  {
    if created then ReviewReply(201, "Created Review") else ReviewReply(200, "Updated Review")
  }

  /** The product a review URL names: `get_product` raises NotFound. */
  method ReviewProduct(db: Db, slug: string) returns (r: Result<Id, ReviewError>)
    ensures r.Ok? <==> |ProductsWithSlug(db.products, slug)| == 1
    ensures r.Ok? ==> ProductsWithSlug(db.products, slug) == {r.value}
    ensures r == Err(NoReviewProduct) <==> ProductsWithSlug(db.products, slug) == {}
    ensures r.Err? ==> r == Err(NoReviewProduct) || r == Err(ManyReviewProducts)
  {
    var found := GetOrNone(ProductsWithSlug(db.products, slug));
    match found {
      case NoMatch => r := Err(NoReviewProduct);
      case ManyMatches => r := Err(ManyReviewProducts);
      case OneMatch(p) => r := Ok(p);
    }
  }

  /** `Review.objects.update_or_create(user=user, product=product,
      defaults=...)`. On success `key` is the review written and the result
      tells whether it was created. */
  method UpsertReview(db: Db, user: Id, product: Id, content: ReviewContent) returns (r: Result<bool, ReviewError>, key: Id)
    requires db.Valid()
    modifies db`reviews, db`nextId
    ensures db.Valid()
    ensures r.Ok? <==> |ReviewsBy(old(db.reviews), user, product)| <= 1
    ensures r.Err? ==> r == Err(ManyReviews) && db.reviews == old(db.reviews)
    ensures ReviewKeysUnique(old(db.reviews)) ==> r.Ok?
    ensures r.Ok? ==> (r.value <==> key !in old(db.reviews))
    ensures r.Ok? && key in old(db.reviews) ==> ReviewsBy(old(db.reviews), user, product) == {key}
    ensures r.Ok? && key !in old(db.reviews) ==> ReviewsBy(old(db.reviews), user, product) == {}
    ensures r.Ok? ==> db.reviews == Upserted(old(db.reviews), key, user, product, content)
  {
    key := 0;
    if ReviewKeysUnique(db.reviews) {
      UniqueReviewsOneMatch(db.reviews, user, product);
    }
    var existing := GetOrNone(ReviewsBy(db.reviews, user, product));
    var created: bool;
    match existing {
      case ManyMatches => return Err(ManyReviews), key;
      case OneMatch(k) =>
        key, created := k, false;
      case NoMatch =>
        key := db.FreshId();
        created := true;
    }
    db.reviews := Upserted(db.reviews, key, user, product, content);
    r := Ok(created);
  }

  /** The outcomes of ReviewView.post that come after the upsert. */
  predicate ReviewWritten(r: Result<ReviewReply, ReviewError>)
  {
    r.Ok? || r == Err(ReviewDenied) || r == Err(CheckRaised)
  }

  /** The body of ReviewView.post: upsert the caller's review of the product,
      then run the object permission on it. The write stays even when the
      check refuses or raises, and only staff with a seller row get a
      reply. */
  method ReviewPost(db: Db, req: Requester, slug: string, content: ReviewContent)
    returns (r: Result<ReviewReply, ReviewError>, product: Id, key: Id)
    requires db.Valid()
    modifies db`reviews, db`nextId
    ensures db.Valid()
    ensures r == Err(NoReviewProduct) <==> ProductsWithSlug(db.products, slug) == {}
    ensures r == Err(ManyReviewProducts) <==> |ProductsWithSlug(db.products, slug)| >= 2
    ensures |ProductsWithSlug(db.products, slug)| == 1 ==> ProductsWithSlug(db.products, slug) == {product}
    ensures r == Err(AnonymousReviewer) <==> |ProductsWithSlug(db.products, slug)| == 1 && !req.Member?
    ensures r == Err(ManyReviews) <==>
      && |ProductsWithSlug(db.products, slug)| == 1 && req.Member?
      && |ReviewsBy(old(db.reviews), req.id, product)| >= 2
    ensures ReviewWritten(r) <==>
      && |ProductsWithSlug(db.products, slug)| == 1 && req.Member?
      && |ReviewsBy(old(db.reviews), req.id, product)| <= 1
    ensures ReviewWritten(r) ==>
      && req.Member?
      && (key in old(db.reviews) ==> ReviewsBy(old(db.reviews), req.id, product) == {key})
      && (key !in old(db.reviews) ==> ReviewsBy(old(db.reviews), req.id, product) == {})
      && db.reviews == Upserted(old(db.reviews), key, req.id, product, content)
    ensures ReviewWritten(r) ==> (r == Err(CheckRaised) <==> req.seller.None?)
    ensures ReviewWritten(r) ==> (r.Ok? <==> req.seller.Some? && req.user.isStaff)
    ensures r.Ok? ==> r.value == ReviewReplyOf(key !in old(db.reviews))
    ensures !ReviewWritten(r) ==> db.reviews == old(db.reviews)
    ensures ReviewKeysUnique(old(db.reviews)) ==> r != Err(ManyReviews)
  {
    product, key := 0, 0;
    var found := ReviewProduct(db, slug);
    if found.Err? {
      return Err(found.error), product, key;
    }
    product := found.value;
    if !req.Member? {
      return Err(AnonymousReviewer), product, key;
    }
    var written;
    written, key := UpsertReview(db, req.id, product, content);
    if written.Err? {
      return Err(written.error), product, key;
    }
    CheckAfterUpsertVerdict(req, old(db.reviews), key, product, content);
    var verdict := IsReviewerHasObjectPermission(req, db.reviews[key], db.reviews);
    if verdict == Raises {
      return Err(CheckRaised), product, key;
    } else if verdict == Denied {
      return Err(ReviewDenied), product, key;
    }
    r := Ok(ReviewReplyOf(written.value));
  }

  /** ReviewView.get_queryset: the caller's reviews of the product, or the
      "No Reviews" error when there are none. */
  method GetReviews(db: Db, req: Requester, slug: string) returns (r: Result<set<Id>, ReviewError>, product: Id)
    ensures r == Err(NoReviewProduct) <==> ProductsWithSlug(db.products, slug) == {}
    ensures r == Err(ManyReviewProducts) <==> |ProductsWithSlug(db.products, slug)| >= 2
    ensures |ProductsWithSlug(db.products, slug)| == 1 ==> ProductsWithSlug(db.products, slug) == {product}
    ensures r == Err(AnonymousReviewer) <==> |ProductsWithSlug(db.products, slug)| == 1 && !req.Member?
    ensures r == Err(NoReviews) <==>
      && |ProductsWithSlug(db.products, slug)| == 1 && req.Member?
      && ReviewsBy(db.reviews, req.id, product) == {}
    ensures r.Ok? <==>
      && |ProductsWithSlug(db.products, slug)| == 1 && req.Member?
      && ReviewsBy(db.reviews, req.id, product) != {}
    ensures r.Ok? ==> req.Member? && r.value == ReviewsBy(db.reviews, req.id, product)
    ensures r.Ok? ==> forall k :: k in r.value ==> k in db.reviews && db.reviews[k].user == req.id
  {
    product := 0;
    var found := ReviewProduct(db, slug);
    if found.Err? {
      return Err(found.error), product;
    }
    product := found.value;
    if !req.Member? {
      return Err(AnonymousReviewer), product;
    }
    var reviews := ReviewsBy(db.reviews, req.id, product);
    if reviews == {} {
      return Err(NoReviews), product;
    }
    r := Ok(reviews);
  }

  /** ReviewView.destroy: the review is looked up among the caller's reviews
      of the product, the object permission runs, and the row is removed. A
      caller who is not staff is always refused there, since the review is
      the caller's own review of the product, and a caller without a seller
      row makes the check raise. */
  method ReviewDestroy(db: Db, req: Requester, slug: string, id: Id)
    returns (r: Result<ReviewReply, ReviewError>, product: Id)
    requires db.Valid()
    modifies db`reviews
    ensures db.Valid()
    ensures r == Err(NoReviewProduct) <==> ProductsWithSlug(db.products, slug) == {}
    ensures r == Err(ManyReviewProducts) <==> |ProductsWithSlug(db.products, slug)| >= 2
    ensures |ProductsWithSlug(db.products, slug)| == 1 ==> ProductsWithSlug(db.products, slug) == {product}
    ensures r == Err(AnonymousReviewer) <==> |ProductsWithSlug(db.products, slug)| == 1 && !req.Member?
    ensures r == Err(NoReviews) <==>
      && |ProductsWithSlug(db.products, slug)| == 1 && req.Member?
      && ReviewsBy(old(db.reviews), req.id, product) == {}
    ensures r == Err(ReviewNotFound) <==>
      && |ProductsWithSlug(db.products, slug)| == 1 && req.Member?
      && ReviewsBy(old(db.reviews), req.id, product) != {}
      && id !in ReviewsBy(old(db.reviews), req.id, product)
    ensures r == Err(CheckRaised) <==>
      && |ProductsWithSlug(db.products, slug)| == 1 && req.Member?
      && id in ReviewsBy(old(db.reviews), req.id, product) && req.seller.None?
    ensures r == Err(ReviewDenied) <==>
      && |ProductsWithSlug(db.products, slug)| == 1 && req.Member?
      && id in ReviewsBy(old(db.reviews), req.id, product) && req.seller.Some? && !req.user.isStaff
    ensures r.Ok? <==>
      && |ProductsWithSlug(db.products, slug)| == 1 && req.Member?
      && id in ReviewsBy(old(db.reviews), req.id, product) && req.seller.Some? && req.user.isStaff
    ensures r.Err? ==> db.reviews == old(db.reviews)
    ensures r.Ok? ==> db.reviews == old(db.reviews) - {id}
    ensures r.Ok? ==> r.value == ReviewReply(200, "Success delete review")
  {
    product := 0;
    var found := ReviewProduct(db, slug);
    if found.Err? {
      return Err(found.error), product;
    }
    product := found.value;
    if !req.Member? {
      return Err(AnonymousReviewer), product;
    }
    var mine := ReviewsBy(db.reviews, req.id, product);
    if mine == {} {
      return Err(NoReviews), product;
    }
    if id !in mine {
      return Err(ReviewNotFound), product;
    }
    OwnReviewVerdict(req, db.reviews, id);
    var verdict := IsReviewerHasObjectPermission(req, db.reviews[id], db.reviews);
    if verdict == Raises {
      return Err(CheckRaised), product;
    } else if verdict == Denied {
      return Err(ReviewDenied), product;
    }
    db.reviews := db.reviews - {id};
    r := Ok(ReviewReply(200, "Success delete review"));
  }
}

=== FILE: unique_code.dfy ===
/** The unique-code generator used for order references: a twelve-character
    code over a 35-symbol alphabet, drawn again while it collides with a value
    already stored in the target column.

    The random draws are an oracle: a sequence of alphabet positions, consumed
    twelve at a time. The existence query on the column is membership in the
    set of values the column holds. The generator only reads that set. */
module UniqueCode {
  import opened Core

  /** Upper-case letters and the digits 1 to 9; there is no '0'. */
  const AllowedChars: string := "ABCDEFGHIJKLMNOPQRSTUVWXYZ123456789"
  const CodeLength: nat := 12

  /** One outcome of a random choice from the alphabet: the position drawn. */
  type Choice = i: nat | i < 35

  lemma AlphabetShape()
    ensures |AllowedChars| == 35
    ensures '0' !in AllowedChars
  {
  }

  /** The code spelled by a group of choices. */
  function Spell(picks: seq<Choice>): (code: string)
    ensures |code| == |picks|
    ensures forall i :: 0 <= i < |code| ==> code[i] == AllowedChars[picks[i]]
  {
    seq(|picks|, i requires 0 <= i < |picks| => AllowedChars[picks[i]])
  }

  /** The k-th draw: the code spelled by the k-th group of twelve choices. */
  function Draw(choices: seq<Choice>, k: nat): string
    requires CodeLength * (k + 1) <= |choices|
  {
    Spell(choices[CodeLength * k .. CodeLength * (k + 1)])
  }

  /** Draws codes until one is not in `taken`. The source retries without
      bound; here the oracle is finite and `None` means it ran out. A returned
      code has twelve characters, all from the alphabet, and is not taken. */
  function GenerateUniqueCode(choices: seq<Choice>, taken: set<string>): (r: Option<string>)
    ensures r.Some? ==> |r.value| == CodeLength
    ensures r.Some? ==> forall c :: c in r.value ==> c in AllowedChars
    ensures r.Some? ==> r.value !in taken
    decreases |choices|
  {
    if |choices| < CodeLength then None
    else
      var code := Spell(choices[..CodeLength]);
      if code !in taken then Some(code)
      else GenerateUniqueCode(choices[CodeLength..], taken)
  }

  /** Dropping the first draw shifts the remaining draws down by one. */
  lemma DrawShift(choices: seq<Choice>, i: nat)
    requires CodeLength * (i + 2) <= |choices|
    ensures Draw(choices[CodeLength..], i) == Draw(choices, i + 1)
  {
    var rest := choices[CodeLength..];
    assert rest[CodeLength * i .. CodeLength * (i + 1)]
        == choices[CodeLength * (i + 1) .. CodeLength * (i + 2)];
  }

  /** The result is the first draw that is not taken: every colliding draw
      before it is discarded. */
  lemma {:induction false} FirstFreshDraw(choices: seq<Choice>, taken: set<string>, j: nat)
    requires CodeLength * (j + 1) <= |choices|
    requires forall i: nat :: i < j ==> Draw(choices, i) in taken
    requires Draw(choices, j) !in taken
    ensures GenerateUniqueCode(choices, taken) == Some(Draw(choices, j))
  {
    assert choices[..CodeLength] == choices[0..CodeLength];
    if j > 0 {
      assert Draw(choices, 0) in taken;
      var rest := choices[CodeLength..];
      forall i: nat | i < j - 1
        ensures Draw(rest, i) in taken
      {
        DrawShift(choices, i);
      }
      DrawShift(choices, j - 1);
      FirstFreshDraw(rest, taken, j - 1);
    }
  }

  /** The generator comes back empty exactly when every complete draw the
      oracle holds collides. */
  lemma {:induction false} ExhaustedIffAllCollide(choices: seq<Choice>, taken: set<string>)
    ensures GenerateUniqueCode(choices, taken) == None
        <==> forall i: nat :: CodeLength * (i + 1) <= |choices| ==> Draw(choices, i) in taken
    decreases |choices|
  {
    if |choices| >= CodeLength {
      assert choices[..CodeLength] == choices[0..CodeLength];
      var rest := choices[CodeLength..];
      ExhaustedIffAllCollide(rest, taken);
      if Draw(choices, 0) in taken {
        forall i: nat | CodeLength * (i + 1) <= |rest|
          ensures Draw(rest, i) == Draw(choices, i + 1)
        {
          DrawShift(choices, i);
        }
        if forall i: nat :: CodeLength * (i + 1) <= |rest| ==> Draw(rest, i) in taken {
          forall i: nat | CodeLength * (i + 1) <= |choices|
            ensures Draw(choices, i) in taken
          {
            if i > 0 {
              assert Draw(rest, i - 1) == Draw(choices, i);
            }
          }
        }
      }
    }
  }
}

=== FILE: user_manager.dfy ===
/** The custom user manager: the fixed-order validation of a new account, the
    creation of a user row, and the superuser defaults. The framework's email
    and password validators, its email normaliser and its password hasher are
    services passed in a `Framework`. */
module UserManager {
  import opened Core
  import opened Domain
  import opened Database

  /** The two exception classes the manager raises, with their message. */
  datatype UserError = ValueError(message: string) | ValidationError(message: string)

  const NeedFirstName: string := "Users must submit a first name"
  const NeedLastName: string := "Users must submit a last name"
  const NeedEmail: string := "Base User Account: An email address is required"
  const NeedPassword: string := "Base User Account: A password is required"
  const InvalidEmail: string := "You must provide a valid email address"
  const InvalidPassword: string := "You must provide a valid password"
  const SuperuserNotStaff: string := "Superusers must have is_staff=True"

  /** email_validator: the framework's rejection becomes a ValueError. */
  function EmailValidator(email: string, fw: Framework): Option<UserError>
  {
    if fw.isValidEmail(email) then None else Some(ValueError(InvalidEmail))
  }

  /** password_validator: the framework's rejection becomes a ValidationError
      with a message of the manager's own. */
  function PasswordValidator(password: string, fw: Framework): Option<UserError>
  {
    if fw.isValidPassword(password) then None else Some(ValidationError(InvalidPassword))
  }

  /** validate_user: the first failing check decides the error; `None` means
      the user may be created. The email is normalised before it is checked. */
  function ValidateUser(firstName: string, lastName: string, email: string, password: string, fw: Framework): Option<UserError>
  {
    if firstName == "" then Some(ValueError(NeedFirstName))
    else if lastName == "" then Some(ValueError(NeedLastName))
    else if email == "" then Some(ValueError(NeedEmail))
    else if EmailValidator(fw.normalizeEmail(email), fw).Some? then EmailValidator(fw.normalizeEmail(email), fw)
    else if password == "" then Some(ValueError(NeedPassword))
    else PasswordValidator(password, fw)
  }

  // ---- The order of the checks, as an independent reference ----

  /** One check: whether it passes, and the error it raises when it fails. */
  datatype Check = Check(passes: bool, error: UserError)

  /** The checks of validate_user in the order the manager runs them. */
  function UserChecks(firstName: string, lastName: string, email: string, password: string, fw: Framework): seq<Check>
  {
    [ Check(firstName != "", ValueError(NeedFirstName)),
      Check(lastName != "", ValueError(NeedLastName)),
      Check(email != "", ValueError(NeedEmail)),
      Check(fw.isValidEmail(fw.normalizeEmail(email)), ValueError(InvalidEmail)),
      Check(password != "", ValueError(NeedPassword)),
      Check(fw.isValidPassword(password), ValidationError(InvalidPassword)) ]
  }

  /** The error of the first failing check, if any. */
  function FirstFailure(checks: seq<Check>): (r: Option<UserError>)
    ensures r.None? <==> forall i :: 0 <= i < |checks| ==> checks[i].passes
  {
    if checks == [] then None
    else if !checks[0].passes then Some(checks[0].error)
    else FirstFailure(checks[1..])
  }

  /** A reported error is the error of a failing check all of whose
      predecessors pass. */
  lemma {:induction false} FirstFailureIsFirst(checks: seq<Check>)
    requires FirstFailure(checks).Some?
    ensures exists i :: && 0 <= i < |checks| && !checks[i].passes
                        && FirstFailure(checks).value == checks[i].error
                        && forall j :: 0 <= j < i ==> checks[j].passes
  {
    if checks[0].passes {
      var rest := checks[1..];
      FirstFailureIsFirst(rest);
      var i :| && 0 <= i < |rest| && !rest[i].passes
               && FirstFailure(rest).value == rest[i].error
               && forall j :: 0 <= j < i ==> rest[j].passes;
      assert checks[i + 1] == rest[i];
      forall j | 0 <= j < i + 1
        ensures checks[j].passes
      {
        if j > 0 { assert checks[j] == rest[j - 1]; }
      }
    }
  }

  /** validate_user runs exactly the checks of UserChecks, in that order. */
  lemma ValidateUserFollowsOrder(firstName: string, lastName: string, email: string, password: string, fw: Framework)
    ensures ValidateUser(firstName, lastName, email, password, fw)
         == FirstFailure(UserChecks(firstName, lastName, email, password, fw))
  {
    var c := UserChecks(firstName, lastName, email, password, fw);
    assert c[5..][1..] == [];
    assert FirstFailure(c[5..]) == PasswordValidator(password, fw);
    assert c[4..][1..] == c[5..];
    assert FirstFailure(c[4..]) == if password == "" then Some(ValueError(NeedPassword)) else FirstFailure(c[5..]);
    assert c[3..][1..] == c[4..];
    assert FirstFailure(c[3..]) == if fw.isValidEmail(fw.normalizeEmail(email)) then FirstFailure(c[4..]) else Some(ValueError(InvalidEmail));
    assert c[2..][1..] == c[3..];
    assert FirstFailure(c[2..]) == if email == "" then Some(ValueError(NeedEmail)) else FirstFailure(c[3..]);
    assert c[1..][1..] == c[2..];
    assert FirstFailure(c[1..]) == if lastName == "" then Some(ValueError(NeedLastName)) else FirstFailure(c[2..]);
  }

  /** A user is accepted exactly when both names and both credentials are
      present, the normalised email is valid and the password is valid. */
  lemma ValidateUserAccepts(firstName: string, lastName: string, email: string, password: string, fw: Framework)
    ensures ValidateUser(firstName, lastName, email, password, fw).None? <==>
      && firstName != "" && lastName != ""
      && email != "" && fw.isValidEmail(fw.normalizeEmail(email))
      && password != "" && fw.isValidPassword(password)
  {
    ValidateUserFollowsOrder(firstName, lastName, email, password, fw);
    var checks := UserChecks(firstName, lastName, email, password, fw);
    assert checks[0].passes <==> firstName != "";
    assert checks[3].passes <==> fw.isValidEmail(fw.normalizeEmail(email));
    assert checks[5].passes <==> fw.isValidPassword(password);
  }

  // ---- Creation ----

  /** The extra fields a caller may pass; an absent one (None) takes the
      model's default. A given value is recorded by its truthiness: an
      explicit None, 0 or "" for is_staff is `Some(false)`. */
  datatype ExtraFields = ExtraFields(isStaff: Option<bool>, isActive: Option<bool>, accountType: Option<AccountType>)

  function OrElse<T>(o: Option<T>, default: T): T
  {
    if o.Some? then o.value else default
  }

  /** The row create_user saves: the email exactly as given, and the password
      only through the hasher. */
  function NewUser(firstName: string, lastName: string, email: string, password: string, extra: ExtraFields, fw: Framework): User
  {
    User(email, firstName, lastName, fw.hashPassword(password),
         OrElse(extra.accountType, BUYER), OrElse(extra.isStaff, false), OrElse(extra.isActive, true), "")
  }

  /** The stored email is the argument itself, not its normalised form, and
      the stored password is the hash of the argument. */
  lemma StoredEmailIsRaw(firstName: string, lastName: string, email: string, password: string, extra: ExtraFields, fw: Framework)
    requires fw.normalizeEmail(email) != email
    ensures NewUser(firstName, lastName, email, password, extra, fw).email == email
    ensures NewUser(firstName, lastName, email, password, extra, fw).email != fw.normalizeEmail(email)
    ensures NewUser(firstName, lastName, email, password, extra, fw).password == fw.hashPassword(password)
  {
  }

  /** create_user: nothing is saved unless validate_user passes. */
  method CreateUser(db: Db, firstName: string, lastName: string, email: string, password: string, extra: ExtraFields, fw: Framework)
    returns (r: Result<Id, UserError>)
    requires db.Valid()
    modifies db`users, db`nextId
    ensures db.Valid()
    ensures r.Err? <==> ValidateUser(firstName, lastName, email, password, fw).Some?
    ensures r.Err? ==> Some(r.error) == ValidateUser(firstName, lastName, email, password, fw)
    ensures r.Err? ==> db.users == old(db.users)
    ensures r.Ok? ==> r.value !in old(db.users)
    ensures r.Ok? ==> db.users == old(db.users)[r.value := NewUser(firstName, lastName, email, password, extra, fw)]
  {
    var failure := ValidateUser(firstName, lastName, email, password, fw);
    if failure.Some? {
      return Err(failure.value);
    }
    var id := db.FreshId();
    db.users := db.users[id := NewUser(firstName, lastName, email, password, extra, fw)];
    r := Ok(id);
  }

  /** validate_superuser: is_staff defaults to true, and an explicit false is
      refused; the other fields pass through. */
  function ValidateSuperuser(extra: ExtraFields): (r: Result<ExtraFields, UserError>)
    ensures r.Ok? <==> extra.isStaff != Some(false)
    ensures r.Ok? ==> r.value.isStaff == Some(true)
    ensures r.Ok? ==> r.value.(isStaff := extra.isStaff) == extra
    ensures r.Err? ==> r.error == ValueError(SuperuserNotStaff)
  {
    match extra.isStaff
    case None => Ok(extra.(isStaff := Some(true)))
    case Some(isStaff) => if isStaff then Ok(extra) else Err(ValueError(SuperuserNotStaff))
  }

  /** The row create_superuser saves is the row create_user would save for
      the same arguments, made staff. */
  lemma SuperuserIsStaffUser(firstName: string, lastName: string, email: string, password: string, extra: ExtraFields, fw: Framework)
    requires ValidateSuperuser(extra).Ok?
    ensures NewUser(firstName, lastName, email, password, ValidateSuperuser(extra).value, fw)
      == NewUser(firstName, lastName, email, password, extra, fw).(isStaff := true)
  {
  }

  /** create_superuser: a created superuser is always staff. */
  method CreateSuperuser(db: Db, firstName: string, lastName: string, email: string, password: string, extra: ExtraFields, fw: Framework)
    returns (r: Result<Id, UserError>)
    requires db.Valid()
    modifies db`users, db`nextId
    ensures db.Valid()
    ensures extra.isStaff == Some(false) ==> r == Err(ValueError(SuperuserNotStaff))
    ensures r.Ok? <==>
      extra.isStaff != Some(false) && ValidateUser(firstName, lastName, email, password, fw).None?
    ensures extra.isStaff != Some(false) && r.Err? ==>
      Some(r.error) == ValidateUser(firstName, lastName, email, password, fw)
    ensures r.Err? ==> db.users == old(db.users)
    ensures r.Ok? ==> r.value !in old(db.users)
    ensures r.Ok? ==> db.users == old(db.users)[r.value := NewUser(firstName, lastName, email, password, extra.(isStaff := Some(true)), fw)]
    ensures r.Ok? ==> r.value in db.users && db.users[r.value].isStaff
  {
    var fields := ValidateSuperuser(extra);
    if fields.Err? {
      return Err(fields.error);
    }
    assert fields.value == extra.(isStaff := Some(true));
    r := CreateUser(db, firstName, lastName, email, password, fields.value, fw);
  }
}
